=== FILE: README.md ===
# go-neuron, modelled in Dafny

go-neuron builds multi-layer perceptrons where every neuron is a goroutine.
Neurons talk to each other over channels, forwards and backwards, and train by
SGD. This project models the sequential logic inside those actors and proves
properties of it. Values are Dafny `real`, which stands in for `float64`.

- `Params` covers the weight map of a neuron (`Weight.init/forward/backward`),
  with its cached inputs and accumulated gradients.
- `Neuron` covers the unit of neuron.go:
  - the constructors, and the wiring done by `connect`, `feedIn` and `feedOut`;
  - `forward`, a bias-seeded fan-in keyed by sender id;
  - `backward`: sum the gradients, apply the activation's derivative,
    accumulate, send upstream;
  - `step`, one iteration of `start`, and its first `n` iterations.
- A unit's receives are given as a finite sequence of signals in arrival
  order. Its sends are returned as a map from destination id to signal. A
  receive the given signals cannot satisfy is the error `Blocked`.
- `ArrayUnit` covers the older array-indexed `Unit` of unit.go. The events a
  select statement delivers are given as a sequence, and the model uses
  methods with loop invariants.
- `Net` covers net.go:
  - architecture validation, the `%03d_%06d` unit ids and the
    fully-connected wiring in `NewMLP`;
  - the dimension checks of `Forward` and `Backward`;
  - the per-unit loop.
- `UnitIds` gives the id format, a parser and the injectivity proof.
- `Schedule` covers the phases of the endless `start` loops, cut off after
  `n` iterations.
- `Activations` (ReLU, Identity), `Optim` (SGD with momentum and weight
  decay) and `Loss` (hinge loss) follow their files one to one.

Go's map iteration order is unspecified. The loops over `W.Params` in
`backward` and `step` are therefore modelled as folds over an arbitrary
duplicate-free key enumeration. The lemmas `Neuron.BackwardAnyOrder` and
`Optim.StepAllKeysIsPointwise` prove that every enumeration gives the
pointwise result.

Two behaviours of the code worth noting:

- The neuron.go `forward` takes the first `nin` signals whatever their
  senders. It does not track a pending set of peers or detect a second
  signal from the same peer.
- An input unit is not weightless. It holds an untrainable `_INPUT` weight
  of 1.0 and waits for one signal.

net.go refers to an older API generation (`InputUnit`, `FeedIn(u, v)`, a
`Net` with typed layers). It is therefore modelled on its own terms, as ids
and a set of links. Module `Net` does not compose it with the units of
module `Neuron`.

## Model

| member | source | states |
|---|---|---|
| Params.Init | neuron.go:39-44 | sets key id, adding it when absent, holding the given data and trainability, with a zero cached value and gradient; other keys keep their parameters |
| Params.Forward | neuron.go:46-55 | an absent id gives 0 and leaves the map alone; otherwise the result is data times input, the input is cached only on a trainable parameter, and nothing else changes |
| Params.Accrue | neuron.go:62-64 | a trainable parameter's gradient grows by gradient times cached value; an untrainable one is untouched |
| Params.Backward | neuron.go:57-66 | an absent id gives 0 and leaves the map alone; otherwise the result is data times gradient, the gradient accrues on that parameter only, and the keys are unchanged |
| Params.ForwardThenBackward | neuron.go:46-66 | a forward pass then a backward pass on one trainable id raises its gradient by gradient times the forwarded input |
| Activations.Forward | activations.go:19-38 | ReLU outputs max(x, 0), which is never negative, and records x; Identity returns x |
| Activations.Backward | activations.go:25-43 | ReLU passes the gradient only when the recorded input is positive, otherwise 0; Identity passes it unchanged |
| Activations.OutputIsDerivativeTimesInput | activations.go:19-43 | for both activations the output equals the derivative the backward pass uses, times the input |
| Activations.BackwardAfterForward | activations.go:19-30 | backward after forward zeroes the gradient exactly for a ReLU fed a non-positive input |
| Activations.ReluExamples | activations.go:19-30 | ReLU on 1 gives 1 with gradient 1; on -1 it gives 0 with gradient 0 |
| Optim.NewSGD | optim.go:53-60 | the given hyperparameters and an empty momentum buffer |
| Optim.New | optim.go:48-50 | the same hyperparameters as the original and an empty momentum buffer, so no state is shared |
| Optim.Step | optim.go:19-45 | skips an untrainable parameter; otherwise consumes the gradient, seeds or decays the momentum buffer for that id only, and moves the data against the buffer or the effective gradient |
| Optim.StepIsolated | optim.go:32-39 | a step on one id never changes how another id is stepped |
| Optim.StepInOrder | neuron.go:213-215 | the `range W.Params` loop in a given key order keeps the hyperparameters, adds no weight, and keeps the parameters and buffer entries of ids it does not reach |
| Optim.StepInOrderIsPointwise | optim.go:19-45 | stepping the ids of any duplicate-free enumeration one after another equals stepping each id on its own |
| Optim.StepAllKeysIsPointwise | neuron.go:213-215 | stepping every key of a weight map in any order updates each parameter and each buffer entry as its own single step would, and leaves the other buffer entries alone |
| Optim.WorkedExample | optim.go:19-45 | a decayed step takes data 1 to 0.8; two momentum steps with gradients 1 and -1 take it to 0.7 and then to 0.71, with buffer -0.1 |
| Loss.MarginLoss | loss.go:9-21 | fails exactly for a target other than 1 and -1; the loss is the hinge max(1 - score*target, 0); the gradient is 0 once the margin is met and -target before |
| Loss.ZeroLossIffZeroGrad | loss.go:14-20 | the loss is zero exactly when the gradient is zero |
| Loss.GradIsSubgradient | loss.go:14-20 | the returned gradient is a subgradient of the hinge loss at the score |
| Loss.Examples | loss.go:9-21 | score 9 gives (0, 0) for target 1 and (10, 1) for target -1; target 99 fails |
| Schedule.Iteration | neuron.go:220-233 | one iteration runs forward first, backward only when training, a step only when one is due, then the completion report, in that order |
| Schedule.TraceCounts | neuron.go:220-233 | over n iterations: n forward passes, n backward passes when training, n div f steps when training with a positive frequency f, and n completion reports when reporting |
| Schedule.TracePrefix | neuron.go:220-233 | running fewer iterations yields a prefix of the phases of running more |
| UnitIds.Padded | net.go:40 | a zero-padded decimal of at least the requested width, made of digits only |
| UnitIds.ValueOfPadded | net.go:40 | reading back a zero-padded decimal gives the number |
| UnitIds.UnitId | net.go:40-62 | the `%03d_%06d` id of (layer, position) parses back to (layer, position) |
| UnitIds.UnitIdInjective | net.go:40-62 | two positions with the same id are the same position |
| UnitIds.UnitIdNotReserved | neuron.go:91-95 | no unit id collides with the reserved `_INPUT`, `_OUTPUT` and `_BIAS` ids |
| UnitIds.UnitIdExample | net_test.go:50 | unit 0 of layer 2 is named `002_000000` |
| UnitIds.UnitIdWidth | net.go:40 | ids of layers below 1000 and positions below 1000000 are ten characters long |
| Net.FirstTooSmall | net.go:25-29 | finds the first layer size below 1, or none when every size is at least 1 |
| Net.NewMLP | net.go:18-82 | fails for fewer than three layers, or with the first size below 1; otherwise keeps the architecture, names unit j of layer i by its id, and links exactly every unit of a layer to every unit of the next |
| Net.KindOf | net.go:70-77 | with at least three layers, a link out of layer 0 feeds in, a link into the last layer feeds out, and every other link connects two hidden layers |
| Net.Wire | net.go:66-80 | the triple loop emits an edge for every in-range triple from the given layer on, and no other edge |
| Net.LinksJoinAdjacentLayers | net.go:66-80 | the two ends of every link parse to positions in consecutive layers of the architecture |
| Net.IdsDistinct | net.go:42-64 | the units of a network have pairwise distinct ids |
| Net.Forward | net.go:85-105 | fails unless the data width equals the input layer size; otherwise feeds value i to input unit i and returns exactly one value per output unit |
| Net.Backward | net.go:108-129 | fails unless the gradient width equals the output layer size; otherwise feeds gradient i to output unit i and returns exactly one gradient per input unit |
| Net.Loop | net.go:151-163 | a phase trace, not a unit state: over n iterations: n forward passes, n backward passes when training, n div f steps when training with a positive frequency f, and no completion reports |
| Neuron.NewUnit | neuron.go:120-134 | no weights, no sends, no optimizer, and the wiring invariant holds |
| Neuron.FeedIn | neuron.go:146-149 | adds the untrainable unit weight on the external input and one expected signal; keeps the wiring invariant |
| Neuron.FeedOut | neuron.go:152-154 | adds the external sink to the sends and changes nothing else |
| Neuron.NewInputUnit | neuron.go:97-102 | identity activation, an untrainable `_INPUT` weight of 1 and one expected signal |
| Neuron.NewHiddenUnit | neuron.go:104-109 | ReLU activation, a trainable bias of 0.1 and no connections |
| Neuron.NewOutputUnit | neuron.go:111-117 | identity activation, a trainable bias of 0 and a single send to the external sink |
| Neuron.RandUnif | neuron.go:157-161 | for a draw in [0, 1) the result lies in [a, b) |
| Neuron.Connect | neuron.go:137-143 | the sender gains one send to the receiver; the receiver gains a fresh trainable weight in [-0.01, 0.01), a route back to the sender and one more expected signal; nothing else changes |
| Neuron.ConnectKeepsWired | neuron.go:137-149 | connecting a new, non-reserved peer keeps both units wired: expected signals count the non-bias weights, and the routes back are the non-bias, non-input weights |
| Neuron.Accumulate | neuron.go:173-177 | the receive loop adds the weighted fan-in to the accumulator, and each trainable weight caches the last value its sender sent |
| Neuron.Forward | neuron.go:169-185 | blocked exactly when fewer than `nin` signals arrived; otherwise the pre-activation is the bias plus the weighted fan-in of the first `nin` signals, and the activated value goes to every destination; only the caches and the activation change |
| Neuron.FanInPermutation | neuron.go:173-177 | the weighted fan-in of the same signals is the same in every arrival order |
| Neuron.ForwardOrderIndependent | neuron.go:169-185 | two arrival orders of the same signals give the same pre-activation, the same sends and the same activation state |
| Neuron.Backward | neuron.go:189-206 | blocked exactly when fewer gradients arrived than there are destinations; otherwise the unit gradient is the activation's derivative applied to their sum, every weight accrues it, and every weight with a route back sends data times gradient upstream |
| Neuron.BackwardInOrder | neuron.go:200-205 | the `range u.W.Params` loop in a given key order: weights it does not reach keep their state, no weight is added, only upstream peers are sent to, and earlier sends to peers it does not reach stay |
| Neuron.BackwardAnyOrder | neuron.go:200-205 | visiting the weights in any duplicate-free order of the keys gives the same weights and the same upstream sends |
| Neuron.BackwardInOrderIsPointwise | neuron.go:200-205 | the loop over any part of the keys accrues and sends for exactly those keys |
| Neuron.BiasGradientIsUnitGradient | neuron.go:169-206 | after forward and backward the bias gradient has grown by exactly the unit gradient, because the bias caches 1 |
| Neuron.SetOptimizer | neuron.go:163-165 | installs a fresh copy of the optimizer's hyperparameters and changes nothing else |
| Neuron.Step | neuron.go:209-216 | fails exactly when no optimizer is set; otherwise every weight takes its own optimizer step, each weight's momentum entry is the one its own step leaves, other entries and the hyperparameters stay, and nothing else changes |
| Neuron.Iterate | neuron.go:220-233 | fires what `forward` sends and, when training, propagates what `backward` sends; a step is taken exactly when due, is `step` applied to the unit `backward` left, and consumes every trainable gradient; without a step the unit is exactly as `backward` left it when training, or as `forward` left it otherwise; it blocks on a missing signal or gradient, and fails for a missing optimizer exactly when a step is due |
| Neuron.Start | neuron.go:220-233 | iterations 1 to n of `start` take n div f optimizer steps when training with a positive frequency f and none otherwise; every iteration completes when its signals and gradients are on hand and an optimizer is installed before the first step falls due; an installed optimizer stays; the activation kind and every weight's trainability never change; only a step reports a missing optimizer; until the first step the data and optimizer stay; the unit's wiring never changes |
| Neuron.StartUnfolds | neuron.go:220-233 | the unit after n successful iterations is `Iterate` applied, with counter n, to the unit after the first n - 1 |
| Neuron.MissingOptimizerPanics | neuron.go:209-233 | training with a positive frequency and no optimizer fails with the missing-optimizer panic once a step falls due, even with every signal and gradient on hand |
| Neuron.StartFollowsSchedule | neuron.go:220-233 | the steps the unit takes are the step phases of its schedule, which reports completion once per iteration |
| ArrayUnit.Zero | unit.go:26-32 | pre-activation back to the bias, gradient and every value slot to 0, weights untouched |
| ArrayUnit.Absorb | unit.go:58-74 | one event changes only its own connection slot; a value moves the receive count by one and the pre-activation by weight times value, a close only lowers the open count by one |
| ArrayUnit.AbsorbCommutes | unit.go:55-74 | two events the select delivers give the same totals in either order |
| ArrayUnit.RunMeaning | unit.go:53-73 | the running totals are the bias plus the weighted sum, the per-connection sums, the receive count, and the inputs not yet seen closed |
| ArrayUnit.Collect | unit.go:55-89 | the select loop computes the running totals of all events, and ends by the last close exactly when every input closed |
| ArrayUnit.Forward | unit.go:37-98 | polls forever exactly when no value arrived and some input is open; otherwise reports closed exactly when every input closed, keeps the weights, and sends the pre-activation on every output only when it is positive |
| ArrayUnit.Gather | unit.go:121-141 | takes one gradient per output connection and returns their sum; fails on a closed connection or on a second gradient from one connection, decided by the last event taken after distinct gradients; is still waiting only when every event on hand is a distinct gradient and too few arrived; succeeds whenever distinct gradients from every output are on hand |
| ArrayUnit.Update | unit.go:143-148 | input i is sent the gradient times the old weight i, and weight i then drops by lr times gradient times value i; weights past the inputs and everything else but the gradient stay |
| ArrayUnit.Backward | unit.go:103-149 | skips a unit that did not fire, with no change; otherwise adds the gathered sum to the gradient and updates; fails or waits exactly as the gathering does; completes whenever distinct gradients from every output are on hand |

## Left out

- Goroutines, channels and their blocking are not modelled. A receive is a
  given sequence, a send is a returned map or sequence, and a receive that
  never completes is an error value. This covers `Net.Start`
  (net.go:132-147) and the `stepDone` barrier as a synchronisation.
- `float64` rounding and IEEE special values are left out; values are
  `real`. The seeded reference numbers in unit_test.go and net_test.go
  depend on both and on `math/rand`.
- `math/rand` is left out. The draw behind `randUnif` is a parameter in
  [0, 1).
- Logging (`logf`, `Logf`, utils.go), the benchmark and the drivers under
  examples/ are left out: they do no computation the model needs.
- The timing-driven exit of unit.go `Forward` is modelled as the end of the
  given events. This is the default case, `waitCount` and `time.Sleep`
  (unit.go:75-88).
- Neuron.Connect: does not model connecting a unit to itself, where both
  arguments of Go's `connect` are the same unit.
- Neuron.RandUnif: states the range of the result only, not its
  distribution.
- Neuron.Iterate: the iteration counter is an unbounded integer; Go's `int`
  counter could wrap after 2^63 iterations.
- Neuron.Start: counts iterations with the same unbounded integer, for the
  same reason.
- ArrayUnit.Forward: the events are assumed to be ones a select over the
  input channels can deliver. Every event is on an input connection, and
  nothing arrives on a connection after it closed.
- Net.Forward: the values the output units emit are a parameter, because
  they come from other goroutines.
- Net.Backward: the gradients the input units emit are a parameter, for the
  same reason.
- Net.NewMLP: builds ids and links, not unit records, because net.go calls
  an API generation (`NewInputUnit`, `FeedIn(u, v)`) that neuron.go does not
  define.

=== FILE: activations.dfy ===
/** The two activation functions of activations.go. A `Relu` records the
    pre-activation of its last forward pass; `Identity` holds no state. */
module Activations {

  datatype Activation = Relu(recorded: real) | Identity

  /** `math.Max(x, 0)` on reals. */
  function Max0(x: real): real {
    if x > 0.0 then x else 0.0
  }

  /** Forward pass: returns the updated activation state and the output. */
  function Forward(a: Activation, x: real): (r: (Activation, real))
    ensures a.Relu? ==> r.0 == Relu(x) && r.1 >= 0.0
    ensures a.Relu? ==> r.1 == Max0(x) && (r.1 == x || r.1 == 0.0)
    ensures a.Identity? ==> r == (Identity, x)
  {
    match a
    case Relu(_) => (Relu(x), Max0(x))
    case Identity => (Identity, x)
  }

  /** Backward pass: the incoming gradient times the derivative at the
      recorded point. The state is only read, never written. */
  function Backward(a: Activation, g: real): (r: real)
    ensures a.Relu? && a.recorded <= 0.0 ==> r == 0.0
    ensures a.Relu? && a.recorded > 0.0 ==> r == g
    ensures a.Identity? ==> r == g
  {
    match a
    case Relu(x) => if x <= 0.0 then 0.0 else g
    case Identity => g
  }

  /** Both activations are positively homogeneous: the output of a forward
      pass equals its input scaled by the derivative the following backward
      pass applies. */
  lemma OutputIsDerivativeTimesInput(a: Activation, x: real)
    ensures Forward(a, x).1 == Backward(Forward(a, x).0, 1.0) * x
  {
  }

  /** Backward after Forward on `x`: the gradient passes iff `x > 0` under
      ReLU, and always under Identity. */
  lemma BackwardAfterForward(a: Activation, x: real, g: real)
    ensures Backward(Forward(a, x).0, g) == (if a.Relu? && x <= 0.0 then 0.0 else g)
  {
  }

  /** The two ReLU cases exercised by the package's own test. */
  lemma ReluExamples()
    ensures Forward(Relu(0.0), 1.0).1 == 1.0 && Backward(Forward(Relu(0.0), 1.0).0, 1.0) == 1.0
    ensures Forward(Relu(0.0), -1.0).1 == 0.0 && Backward(Forward(Relu(0.0), -1.0).0, 1.0) == 0.0
  {
  }
}

=== FILE: array_unit.dfy ===
/** The older, array-indexed neuron of unit.go. Its input and output
    connections are numbered; `numIn` and `numOut` stand for the lengths
    of its `input` and `output` channel slices. A pass receives events from
    those channels, given here in the order the select statement chose
    them, and sends values back out, returned here as sequences. */
module ArrayUnit {
  import opened Results

  datatype Unit = Unit(
    id: string,
    weight: seq<real>,
    bias: real,
    value: seq<real>,
    preact: real,
    grad: real,
    numIn: nat,
    numOut: nat)

  /** Every input connection has a weight and a value slot, so no index
      the passes compute is out of range. */
  predicate Valid(u: Unit) {
    u.numIn <= |u.weight| && u.numIn <= |u.value|
  }

  /** `zero`: clears the previous activation before a forward pass. */
  function Zero(u: Unit): (z: Unit)
    ensures z.preact == u.bias && z.grad == 0.0
    ensures |z.value| == |u.value| && forall i :: 0 <= i < |z.value| ==> z.value[i] == 0.0
    ensures z == u.(preact := z.preact, grad := z.grad, value := z.value)
  {
    u.(preact := u.bias, grad := 0.0, value := seq(|u.value|, _ => 0.0))
  }

  // ---------------------------------------------------------------------
  // Forward pass

  /** What the select statement of `Forward` can deliver from input
      connection `chan`: a value, or the news that the channel is closed. */
  datatype Arrival = Recv(chan: nat, v: real) | Close(chan: nat)

  /** Events a select over `numIn` input channels can produce: every event
      is on an input connection, and a closed connection is dropped from
      the select, so nothing arrives on it afterwards. */
  ghost predicate WellFormed(numIn: nat, s: seq<Arrival>) {
    && (forall i :: 0 <= i < |s| ==> s[i].chan < numIn)
    && (forall i, j :: 0 <= i < j < |s| && s[i].Close? ==> s[j].chan != s[i].chan)
  }

  /** The weighted sum of the values received. */
  function WeightedInput(weight: seq<real>, s: seq<Arrival>): real
    requires forall i :: 0 <= i < |s| ==> s[i].chan < |weight|
  {
    if s == [] then 0.0
    else
      var e := s[|s| - 1];
      WeightedInput(weight, s[..|s| - 1]) + (if e.Recv? then weight[e.chan] * e.v else 0.0)
  }

  /** The sum of the values received on connection `c`. */
  function ChannelSum(s: seq<Arrival>, c: nat): real {
    if s == [] then 0.0
    else
      var e := s[|s| - 1];
      ChannelSum(s[..|s| - 1], c) + (if e.Recv? && e.chan == c then e.v else 0.0)
  }

  /** The number of values received. */
  function Receives(s: seq<Arrival>): nat {
    if s == [] then 0 else Receives(s[..|s| - 1]) + (if s[|s| - 1].Recv? then 1 else 0)
  }

  /** The connections observed closed. */
  function ClosedSet(s: seq<Arrival>): set<nat> {
    if s == [] then {} else ClosedSet(s[..|s| - 1]) + (if s[|s| - 1].Close? then {s[|s| - 1].chan} else {})
  }

  function Connections(n: nat): (cs: set<nat>)
    ensures |cs| == n
    ensures forall c: nat :: c in cs <==> c < n
  {
    if n == 0 then {} else
      var cs := Connections(n - 1);
      assert n - 1 !in cs;
      cs + {n - 1}
  }

  /** Every input connection has been observed closed. */
  ghost predicate AllClosed(numIn: nat, s: seq<Arrival>) {
    numIn > 0 && ClosedSet(s) == Connections(numIn)
  }

  lemma ClosedSetBounded(numIn: nat, s: seq<Arrival>)
    requires forall i :: 0 <= i < |s| ==> s[i].chan < numIn
    ensures ClosedSet(s) <= Connections(numIn)
  {
    if s != [] {
      ClosedSetBounded(numIn, s[..|s| - 1]);
    }
  }

  lemma {:induction false} ClosedSetMembers(s: seq<Arrival>, c: nat)
    ensures c in ClosedSet(s) <==> exists i :: 0 <= i < |s| && s[i] == Close(c)
    decreases |s|
  {
    if s != [] {
      ClosedSetMembers(s[..|s| - 1], c);
      if c in ClosedSet(s[..|s| - 1]) {
        var i :| 0 <= i < |s| - 1 && s[..|s| - 1][i] == Close(c);
        assert s[i] == Close(c);
      }
      if exists i :: 0 <= i < |s| && s[i] == Close(c) {
        var i :| 0 <= i < |s| && s[i] == Close(c);
        if i < |s| - 1 {
          assert s[..|s| - 1][i] == Close(c);
        }
      }
    }
  }

  lemma SubsetOfSameSize(a: set<nat>, b: set<nat>)
    requires a <= b && |a| >= |b|
    ensures a == b
  {
    assert b == a + (b - a);
    assert |b - a| == 0;
    assert b - a == {};
  }

  /** The running totals of the select loop of `Forward`. */
  datatype Tallies = Tallies(preact: real, value: seq<real>, numRecv: nat, numOpen: int)

  /** The effect of one event on the running totals: a value is added to
      its slot and, weighted, to the pre-activation; a close takes one
      input off the open count. */
  function Absorb(u: Unit, t: Tallies, e: Arrival): (t': Tallies)
    requires e.chan < |u.weight| && e.chan < |t.value|
    // Only the event's own connection slot can change.
    ensures |t'.value| == |t.value|
    ensures forall c :: 0 <= c < |t.value| && c != e.chan ==> t'.value[c] == t.value[c]
    // A value is counted once and a close once: each event moves exactly
    // one of the two counters by one.
    ensures e.Recv? ==> t'.numRecv == t.numRecv + 1 && t'.numOpen == t.numOpen
    ensures e.Close? ==> t' == t.(numOpen := t.numOpen - 1)
    ensures e.Recv? ==> t'.value[e.chan] - t.value[e.chan] == e.v && t'.preact - t.preact == u.weight[e.chan] * e.v
  {
    match e
    case Recv(c, v) =>
      t.(preact := t.preact + u.weight[c] * v, value := t.value[c := t.value[c] + v], numRecv := t.numRecv + 1)
    case Close(_) => t.(numOpen := t.numOpen - 1)
  }

  /** The select statement may deliver ready events in either order: two
      events absorbed one way round or the other give the same totals. */
  lemma AbsorbCommutes(u: Unit, t: Tallies, e1: Arrival, e2: Arrival)
    requires e1.chan < |u.weight| && e1.chan < |t.value|
    requires e2.chan < |u.weight| && e2.chan < |t.value|
    ensures Absorb(u, Absorb(u, t, e1), e2) == Absorb(u, Absorb(u, t, e2), e1)
  {
    var a, b := Absorb(u, Absorb(u, t, e1), e2), Absorb(u, Absorb(u, t, e2), e1);
    assert a.value == b.value;
  }

  /** The totals after the events of `s`, starting from the zeroed unit. */
  function Run(u: Unit, s: seq<Arrival>): (t: Tallies)
    requires Valid(u) && forall i :: 0 <= i < |s| ==> s[i].chan < u.numIn
    ensures |t.value| == |u.value|
  {
    if s == [] then Tallies(u.bias, Zero(u).value, 0, u.numIn)
    else Absorb(u, Run(u, s[..|s| - 1]), s[|s| - 1])
  }

  /** The totals are the weighted input, the per-connection sums, the
      number of values received and the number of connections not yet
      observed closed. */
  lemma RunMeaning(u: Unit, s: seq<Arrival>)
    requires Valid(u) && WellFormed(u.numIn, s)
    ensures Run(u, s).preact == u.bias + WeightedInput(u.weight, s)
    ensures forall c :: 0 <= c < |u.value| ==> Run(u, s).value[c] == ChannelSum(s, c)
    ensures Run(u, s).numRecv == Receives(s)
    ensures ClosedSet(s) <= Connections(u.numIn)
    ensures Run(u, s).numOpen == u.numIn - |ClosedSet(s)|
  {
    RunSums(u, s);
    RunOpen(u, s);
  }

  lemma {:induction false} RunSums(u: Unit, s: seq<Arrival>)
    requires Valid(u) && forall i :: 0 <= i < |s| ==> s[i].chan < u.numIn
    ensures Run(u, s).preact == u.bias + WeightedInput(u.weight, s)
    ensures forall c :: 0 <= c < |u.value| ==> Run(u, s).value[c] == ChannelSum(s, c)
    ensures Run(u, s).numRecv == Receives(s)
    decreases |s|
  {
    if s != [] {
      RunSums(u, s[..|s| - 1]);
    }
  }

  lemma {:induction false} RunOpen(u: Unit, s: seq<Arrival>)
    requires Valid(u) && WellFormed(u.numIn, s)
    ensures ClosedSet(s) <= Connections(u.numIn)
    ensures Run(u, s).numOpen == u.numIn - |ClosedSet(s)|
    decreases |s|
  {
    if s != [] {
      var init := s[..|s| - 1];
      var e := s[|s| - 1];
      assert WellFormed(u.numIn, init) by {
        forall i, j | 0 <= i < j < |init| && init[i].Close? ensures init[j].chan != init[i].chan {
          assert init[i] == s[i] && init[j] == s[j];
        }
      }
      RunOpen(u, init);
      ClosedSetBounded(u.numIn, s);
      if e.Close? {
        ClosedSetMembers(init, e.chan);
      }
    }
  }

  /** A close that leaves no input open is the last event. */
  lemma LastClose(u: Unit, s: seq<Arrival>, n: nat)
    requires Valid(u) && WellFormed(u.numIn, s) && n <= |s|
    requires Run(u, s[..n]).numOpen <= 0
    ensures n == |s|
  {
    assert WellFormed(u.numIn, s[..n]) by {
      forall i, j | 0 <= i < j < n && s[..n][i].Close? ensures s[..n][j].chan != s[..n][i].chan {
        assert s[..n][i] == s[i] && s[..n][j] == s[j];
      }
    }
    RunMeaning(u, s[..n]);
    SubsetOfSameSize(ClosedSet(s[..n]), Connections(u.numIn));
    NothingAfterAllClosed(u.numIn, s, n);
  }

  /** The outcome of a forward pass that returns: the updated unit, the
      value sent on each output connection (nothing when the unit does not
      fire) and whether the inputs were all closed. */
  datatype Fired = Fired(unit: Unit, sent: seq<real>, closed: bool)

  /** `Forward`: zeroes the unit, accumulates the values received and their
      weighted sum, and stops once every input is closed or, after at least
      one value has arrived, when the inputs fall quiet (the end of
      `arrivals`). Without any value and with some input still open, the
      select loop polls forever, modelled as `None`. The unit fires its
      pre-activation on every output connection only when it is positive. */
  method Forward(u: Unit, arrivals: seq<Arrival>) returns (r: Option<Fired>)
    requires Valid(u) && WellFormed(u.numIn, arrivals)
    ensures r.None? <==> Receives(arrivals) == 0 && !AllClosed(u.numIn, arrivals)
    ensures r.Some? ==> (r.value.closed <==> AllClosed(u.numIn, arrivals))
    ensures r.Some? ==> r.value.unit.preact == u.bias + WeightedInput(u.weight, arrivals)
    ensures r.Some? ==> r.value.unit.grad == 0.0 && |r.value.unit.value| == |u.value|
    ensures r.Some? ==> forall c :: 0 <= c < u.numIn ==> r.value.unit.value[c] == ChannelSum(arrivals, c)
    ensures r.Some? ==> forall c :: u.numIn <= c < |u.value| ==> r.value.unit.value[c] == 0.0
    ensures r.Some? ==> r.value.unit.weight == u.weight && r.value.unit.bias == u.bias
    ensures r.Some? ==> r.value.unit == u.(preact := r.value.unit.preact, grad := 0.0, value := r.value.unit.value)
    ensures r.Some? && r.value.unit.preact > 0.0 ==>
      |r.value.sent| == u.numOut && forall o :: 0 <= o < u.numOut ==> r.value.sent[o] == r.value.unit.preact
    ensures r.Some? && r.value.unit.preact <= 0.0 ==> r.value.sent == []
  {
    var t, allClosed := Collect(u, arrivals);
    RunMeaning(u, arrivals);
    forall c | u.numIn <= c < |u.value| ensures ChannelSum(arrivals, c) == 0.0 {
      ChannelSumSilent(arrivals, c);
    }
    if !allClosed && t.numRecv == 0 {
      return None;
    }
    var unit := Zero(u).(preact := t.preact, value := t.value);
    var sent := if t.preact > 0.0 then seq(u.numOut, _ => t.preact) else [];
    return Some(Fired(unit, sent, t.numOpen <= 0));
  }

  /** A connection nothing arrived on sums to zero. */
  lemma {:induction false} ChannelSumSilent(s: seq<Arrival>, c: nat)
    requires forall i :: 0 <= i < |s| ==> s[i].chan != c
    ensures ChannelSum(s, c) == 0.0
    decreases |s|
  {
    if s != [] {
      ChannelSumSilent(s[..|s| - 1], c);
    }
  }

  /** The select loop of `Forward`, started from a zeroed unit: it takes
      events until every input is closed or `arrivals` runs out, and
      returns the running totals and whether the loop ended because the
      last input closed. */
  method Collect(u: Unit, arrivals: seq<Arrival>) returns (t: Tallies, allClosed: bool)
    requires Valid(u) && WellFormed(u.numIn, arrivals)
    ensures t == Run(u, arrivals)
    ensures allClosed <==> AllClosed(u.numIn, arrivals)
    ensures t.numRecv > 0 || allClosed ==> (t.numOpen <= 0 <==> allClosed)
  {
    t := Tallies(u.bias, Zero(u).value, 0, u.numIn);
    allClosed := false;
    var i := 0;
    while i < |arrivals| && !allClosed
      invariant 0 <= i <= |arrivals|
      invariant t == Run(u, arrivals[..i])
      invariant allClosed ==> i == |arrivals| && i > 0 && t.numOpen <= 0
      invariant !allClosed && i > 0 ==> t.numOpen > 0
      decreases |arrivals| - i
    {
      assert arrivals[..i + 1][..i] == arrivals[..i];
      t := Absorb(u, t, arrivals[i]);
      if arrivals[i].Close? && t.numOpen <= 0 {
        LastClose(u, arrivals, i + 1);
        allClosed := true;
      }
      i := i + 1;
    }
    assert arrivals[..i] == arrivals;
    RunMeaning(u, arrivals);
    CountClosed(u.numIn, arrivals);
  }

  /** All inputs are closed exactly when some event arrived and as many
      connections closed as there are inputs. */
  lemma CountClosed(numIn: nat, s: seq<Arrival>)
    requires WellFormed(numIn, s)
    ensures ClosedSet(s) <= Connections(numIn)
    ensures AllClosed(numIn, s) <==> s != [] && |ClosedSet(s)| >= numIn
  {
    ClosedSetBounded(numIn, s);
    if s != [] && |ClosedSet(s)| >= numIn {
      assert s[0].chan < numIn;
      SubsetOfSameSize(ClosedSet(s), Connections(numIn));
    }
  }

  /** Once every input connection is closed no further event can arrive. */
  lemma NothingAfterAllClosed(numIn: nat, s: seq<Arrival>, n: nat)
    requires WellFormed(numIn, s) && n <= |s|
    requires ClosedSet(s[..n]) == Connections(numIn)
    ensures n == |s|
  {
    if n < |s| {
      ClosedSetMembers(s[..n], s[n].chan);
    }
  }

  // ---------------------------------------------------------------------
  // Backward pass

  /** What the select statement of `Backward` can deliver from output
      connection `chan`. */
  datatype GradArrival = Grad(chan: nat, v: real) | GradClosed(chan: nat)

  datatype BackwardError =
    | Unreceived               // fewer gradients arrived than there are outputs
    | ConnectionClosed(chan: nat)
    | AlreadyReceived(chan: nat)

  datatype Backprop = Skipped | Updated(unit: Unit, upstream: seq<real>)

  /** Gradients, each from a different output connection. */
  ghost predicate DistinctGrads(s: seq<GradArrival>) {
    && (forall i :: 0 <= i < |s| ==> s[i].Grad?)
    && (forall i, j :: 0 <= i < j < |s| ==> s[i].chan != s[j].chan)
  }

  function GradSum(s: seq<GradArrival>): real {
    if s == [] then 0.0
    else GradSum(s[..|s| - 1]) + (if s[|s| - 1].Grad? then s[|s| - 1].v else 0.0)
  }

  /** The receive loop of `Backward`: takes one gradient from each of
      `numOut` output connections and returns their sum, panicking on a
      closed connection or on a second gradient from the same connection.
      `consumed` is the number of events taken from `arrivals`. */
  method Gather(numOut: nat, arrivals: seq<GradArrival>) returns (r: Result<real, BackwardError>, consumed: nat)
    requires forall i :: 0 <= i < |arrivals| ==> arrivals[i].chan < numOut
    ensures consumed <= |arrivals| && consumed <= numOut
    ensures r.Ok? ==> consumed == numOut && DistinctGrads(arrivals[..numOut]) && r.value == GradSum(arrivals[..numOut])
    // Distinct gradients on hand for every output connection complete the loop.
    ensures |arrivals| >= numOut && DistinctGrads(arrivals[..numOut]) ==> r.Ok?
    // A panic is decided by the last event taken; the ones before it are
    // distinct gradients.
    ensures r.Err? && r != Err(Unreceived) ==> consumed >= 1 && DistinctGrads(arrivals[..consumed - 1])
    // Still waiting only when every event on hand is a distinct gradient and
    // there are too few of them.
    ensures r == Err(Unreceived) ==> consumed == |arrivals| < numOut && DistinctGrads(arrivals)
    ensures r.Err? && r.error.ConnectionClosed? ==> consumed >= 1 && arrivals[consumed - 1] == GradClosed(r.error.chan)
    ensures r.Err? && r.error.AlreadyReceived? ==>
      && consumed >= 1 && arrivals[consumed - 1].Grad? && arrivals[consumed - 1].chan == r.error.chan
      && exists j :: 0 <= j < consumed - 1 && arrivals[j].chan == r.error.chan
  {
    var sum := 0.0;
    var seen: set<nat> := {};
    var i := 0;
    while i < numOut
      invariant i <= numOut && i <= |arrivals|
      invariant DistinctGrads(arrivals[..i])
      invariant forall c :: c in seen <==> exists j :: 0 <= j < i && arrivals[j].chan == c
      invariant sum == GradSum(arrivals[..i])
    {
      if i == |arrivals| {
        assert arrivals[..i] == arrivals;
        return Err(Unreceived), i;
      }
      var e := arrivals[i];
      assert arrivals[..i + 1][..i] == arrivals[..i];
      if e.GradClosed? {
        assert |arrivals| >= numOut ==> arrivals[..numOut][i] == e;
        return Err(ConnectionClosed(e.chan)), i + 1;
      }
      if e.chan in seen {
        ghost var j :| 0 <= j < i && arrivals[j].chan == e.chan;
        assert |arrivals| >= numOut ==> arrivals[..numOut][i] == e && arrivals[..numOut][j] == arrivals[j];
        return Err(AlreadyReceived(e.chan)), i + 1;
      }
      seen := seen + {e.chan};
      sum := sum + e.v;
      i := i + 1;
    }
    return Ok(sum), i;
  }

  /** The backprop and update after the gradients are in: input connection
      `i` is sent `grad * weight[i]` with the weight from before the update,
      and the weight then drops by `lr * grad * value[i]`. */
  function Update(u: Unit, lr: real, grad: real): (b: Backprop)
    requires Valid(u)
    ensures b.Updated? && b.unit == u.(grad := grad, weight := b.unit.weight)
    ensures |b.upstream| == u.numIn && |b.unit.weight| == |u.weight|
    ensures forall i :: 0 <= i < u.numIn ==> b.upstream[i] == grad * u.weight[i]
    ensures forall i :: 0 <= i < u.numIn ==> b.unit.weight[i] == u.weight[i] - lr * grad * u.value[i]
    ensures forall i :: u.numIn <= i < |u.weight| ==> b.unit.weight[i] == u.weight[i]
  {
    var upstream := seq(u.numIn, k requires 0 <= k < u.numIn => grad * u.weight[k]);
    var weight := seq(|u.weight|, k requires 0 <= k < |u.weight| =>
      if k < u.numIn then u.weight[k] - lr * grad * u.value[k] else u.weight[k]);
    Updated(u.(grad := grad, weight := weight), upstream)
  }

  /** `Backward(lr)`: a unit that did not fire returns at once, with no
      change. Otherwise it gathers one gradient per output connection, adds
      their sum to its gradient, and backpropagates and updates. */
  method Backward(u: Unit, lr: real, arrivals: seq<GradArrival>) returns (r: Result<Backprop, BackwardError>, consumed: nat)
    requires Valid(u)
    requires forall i :: 0 <= i < |arrivals| ==> arrivals[i].chan < u.numOut
    ensures consumed <= |arrivals|
    ensures u.preact <= 0.0 ==> r == Ok(Skipped) && consumed == 0
    ensures r.Err? ==> u.preact > 0.0
    ensures r.Err? && r != Err(Unreceived) ==> consumed >= 1 && DistinctGrads(arrivals[..consumed - 1])
    ensures r == Err(Unreceived) ==> consumed == |arrivals| < u.numOut && DistinctGrads(arrivals)
    ensures r.Err? && r.error.ConnectionClosed? ==> consumed >= 1 && arrivals[consumed - 1] == GradClosed(r.error.chan)
    ensures u.preact > 0.0 && |arrivals| >= u.numOut && DistinctGrads(arrivals[..u.numOut]) ==> r.Ok?
    ensures u.preact > 0.0 && r.Ok? ==>
      && consumed == u.numOut && DistinctGrads(arrivals[..consumed])
      && r.value == Update(u, lr, u.grad + GradSum(arrivals[..consumed]))
    ensures r.Err? && r.error.AlreadyReceived? ==>
      && consumed >= 1 && arrivals[consumed - 1].Grad? && arrivals[consumed - 1].chan == r.error.chan
      && exists j :: 0 <= j < consumed - 1 && arrivals[j].chan == r.error.chan
  {
    if u.preact <= 0.0 {
      return Ok(Skipped), 0;
    }
    var g;
    g, consumed := Gather(u.numOut, arrivals);
    match g
    case Err(e) => return Err(e), consumed;
    case Ok(sum) => return Ok(Update(u, lr, u.grad + sum)), consumed;
  }
}

=== FILE: loss.dfy ===
/** The hinge (maximum-margin) loss of loss.go, used by callers of the
    network to turn a score into a gradient. */
module Loss {
  import opened Results

  datatype LossError = BadTarget(target: int)

  /** `MarginLoss(score, target)`: the loss `max(1 - score*target, 0)` and
      its subgradient with respect to the score. A target other than +1 or
      -1 is rejected. */
  function MarginLoss(score: real, target: int): (r: Result<(real, real), LossError>)
    ensures r.Err? <==> target != 1 && target != -1
    ensures r.Err? ==> r.error == BadTarget(target)
    ensures r.Ok? ==> r.value.0 >= 0.0 && r.value.0 >= 1.0 - score * target as real
    ensures r.Ok? ==> (r.value.0 == 0.0 || r.value.0 == 1.0 - score * target as real)
    ensures r.Ok? && score * target as real >= 1.0 ==> r.value.1 == 0.0
    ensures r.Ok? && score * target as real < 1.0 ==> r.value.1 == -(target as real)
  {
    if !(target == 1 || target == -1) then Err(BadTarget(target))
    else
      var t := target as real;
      var loss := if 1.0 - score * t > 0.0 then 1.0 - score * t else 0.0;
      var grad := if score * t >= 1.0 then 0.0 else -t;
      Ok((loss, grad))
  }

  /** The loss vanishes exactly when the gradient does. */
  lemma ZeroLossIffZeroGrad(score: real, target: int)
    requires target == 1 || target == -1
    ensures MarginLoss(score, target).value.0 == 0.0 <==> MarginLoss(score, target).value.1 == 0.0
  {
  }

  /** The returned gradient is a subgradient of the loss: the tangent line it
      defines at `score` lies below the loss at every other score. */
  lemma GradIsSubgradient(score: real, other: real, target: int)
    requires target == 1 || target == -1
    ensures var (l, g) := MarginLoss(score, target).value;
            MarginLoss(other, target).value.0 >= l + g * (other - score)
  {
    if target == 1 {
      assert score * target as real == score && other * target as real == other;
    } else {
      assert score * target as real == -score && other * target as real == -other;
    }
  }

  /** The cases exercised by the package's own test. */
  lemma Examples()
    ensures MarginLoss(9.0, 1) == Ok((0.0, 0.0))
    ensures MarginLoss(9.0, -1) == Ok((10.0, 1.0))
    ensures MarginLoss(1.0, 99).Err?
  {
  }
}

=== FILE: net.dfy ===
/** The network layer of net.go: architecture validation, the layered unit
    ids, the fully-connected wiring, the dimension checks of the network's
    forward and backward calls and the per-unit loop. Units are identified
    by id; the behaviour of a single unit is the subject of module Neuron. */
module Net {
  import opened Results
  import opened UnitIds
  import Schedule

  /** Which connection helper the wiring loop calls for an edge: `FeedIn`
      out of the input layer, `FeedOut` into the output layer, `Connect`
      between hidden layers. */
  datatype LinkKind = FeedIn | Connect | FeedOut

  /** A directed edge from unit `src` to unit `dst`. */
  datatype Link = Link(kind: LinkKind, src: string, dst: string)

  datatype Net = Net(arch: seq<int>, layers: seq<seq<string>>, links: set<Link>)

  datatype NetError =
    | TooFewLayers(numLayers: nat)
    | LayerTooSmall(size: int)
    | InputDim(got: nat, want: int)
    | GradDim(got: nat, want: int)

  /** The first layer size below 1, in architecture order. */
  function FirstTooSmall(arch: seq<int>): (r: Option<nat>)
    ensures r.None? <==> forall i :: 0 <= i < |arch| ==> arch[i] >= 1
    ensures r.Some? ==> r.value < |arch| && arch[r.value] < 1
    ensures r.Some? ==> forall i :: 0 <= i < r.value ==> arch[i] >= 1
  {
    if arch == [] then None
    else if arch[0] < 1 then Some(0)
    else match FirstTooSmall(arch[1..])
      case None => None
      case Some(i) => Some(i + 1)
  }

  predicate ValidArch(arch: seq<int>) {
    |arch| >= 3 && forall i :: 0 <= i < |arch| ==> arch[i] >= 1
  }

  /** The shape every network built by `NewMLP` has. */
  predicate Valid(n: Net) {
    && ValidArch(n.arch)
    && |n.layers| == |n.arch|
    && forall i :: 0 <= i < |n.arch| ==> |n.layers[i]| == n.arch[i]
  }

  /** The `switch ii` of the wiring loop. */
  function KindOf(layer: nat, numLayers: nat): (k: LinkKind)
    // With at least three layers the input and the last hidden layer are
    // distinct, so every kind of link joins the layers its helper expects.
    ensures numLayers >= 3 && layer + 1 < numLayers ==>
      && (k == FeedIn <==> layer == 0)
      && (k == FeedOut <==> layer + 1 == numLayers - 1)
      && (k == Connect <==> 1 <= layer && layer + 1 < numLayers - 1)
  {
    if layer == 0 then FeedIn else if layer == numLayers - 2 then FeedOut else Connect
  }

  /** The edge from unit `j` of layer `i` to unit `k` of layer `i + 1`. */
  function Edge(numLayers: nat, i: nat, j: nat, k: nat): Link {
    Link(KindOf(i, numLayers), UnitId(i, j), UnitId(i + 1, k))
  }

  /** Unit positions the wiring loop visits. */
  predicate InRange(arch: seq<int>, i: nat, j: nat, k: nat) {
    i + 1 < |arch| && j < arch[i] && k < arch[i + 1]
  }

  function LayerIds(layer: nat, size: nat): (ids: seq<string>)
    ensures |ids| == size && forall j :: 0 <= j < size ==> ids[j] == UnitId(layer, j)
  {
    seq(size, j requires 0 <= j => UnitId(layer, j))
  }

  function AllLayerIds(arch: seq<int>): (layers: seq<seq<string>>)
    requires forall i :: 0 <= i < |arch| ==> arch[i] >= 1
    ensures |layers| == |arch|
    ensures forall i :: 0 <= i < |arch| ==> layers[i] == LayerIds(i, arch[i])
  {
    seq(|arch|, i requires 0 <= i < |arch| => LayerIds(i, arch[i]))
  }

  /** Innermost wiring loop: unit `j` of layer `i` to units `k..` of layer `i + 1`. */
  function Fan(arch: seq<int>, i: nat, j: nat, k: nat): set<Link>
    requires i + 1 < |arch|
    decreases arch[i + 1] - k
  {
    if k >= arch[i + 1] then {} else {Edge(|arch|, i, j, k)} + Fan(arch, i, j, k + 1)
  }

  /** Middle wiring loop: units `j..` of layer `i` to all of layer `i + 1`. */
  function Row(arch: seq<int>, i: nat, j: nat): set<Link>
    requires i + 1 < |arch|
    decreases arch[i] - j
  {
    if j >= arch[i] then {} else Fan(arch, i, j, 0) + Row(arch, i, j + 1)
  }

  /** Outer wiring loop: layers `i..` each to the next. */
  function Wire(arch: seq<int>, i: nat): (links: set<Link>)
    // An edge between every pair of units of consecutive layers from layer
    // `i` on, and no other.
    ensures forall l :: l in links <==>
      exists x: nat, j: nat, k: nat :: i <= x && InRange(arch, x, j, k) && l == Edge(|arch|, x, j, k)
    decreases |arch| - i
  {
    if i + 1 >= |arch| then {}
    else
      RowAll(arch, i);
      Row(arch, i, 0) + Wire(arch, i + 1)
  }

  lemma RowAll(arch: seq<int>, i: nat)
    requires i + 1 < |arch|
    ensures forall l :: l in Row(arch, i, 0) <==>
      exists j: nat, k: nat :: InRange(arch, i, j, k) && l == Edge(|arch|, i, j, k)
  {
    forall l ensures l in Row(arch, i, 0) <==>
      exists j: nat, k: nat :: InRange(arch, i, j, k) && l == Edge(|arch|, i, j, k)
    {
      RowMembers(arch, i, 0, l);
    }
  }

  lemma {:induction false} FanMembers(arch: seq<int>, i: nat, j: nat, k0: nat, l: Link)
    requires i + 1 < |arch|
    ensures l in Fan(arch, i, j, k0) <==> exists k: nat :: k0 <= k < arch[i + 1] && l == Edge(|arch|, i, j, k)
    decreases arch[i + 1] - k0
  {
    if k0 < arch[i + 1] {
      FanMembers(arch, i, j, k0 + 1, l);
      var e := Edge(|arch|, i, j, k0);
      assert Fan(arch, i, j, k0) == {e} + Fan(arch, i, j, k0 + 1);
      if l == e {
        assert k0 <= k0 < arch[i + 1] && l == Edge(|arch|, i, j, k0);
      } else if exists k: nat :: k0 <= k < arch[i + 1] && l == Edge(|arch|, i, j, k) {
        var k: nat :| k0 <= k < arch[i + 1] && l == Edge(|arch|, i, j, k);
        assert k0 + 1 <= k;
      }
    }
  }

  lemma {:induction false} RowMembers(arch: seq<int>, i: nat, j0: nat, l: Link)
    requires i + 1 < |arch|
    ensures l in Row(arch, i, j0) <==>
      exists j: nat, k: nat :: j0 <= j < arch[i] && k < arch[i + 1] && l == Edge(|arch|, i, j, k)
    decreases arch[i] - j0
  {
    if j0 < arch[i] {
      FanMembers(arch, i, j0, 0, l);
      RowMembers(arch, i, j0 + 1, l);
      assert Row(arch, i, j0) == Fan(arch, i, j0, 0) + Row(arch, i, j0 + 1);
      if exists j: nat, k: nat :: j0 <= j < arch[i] && k < arch[i + 1] && l == Edge(|arch|, i, j, k) {
        var j: nat, k: nat :| j0 <= j < arch[i] && k < arch[i + 1] && l == Edge(|arch|, i, j, k);
        if j == j0 {
          assert l in Fan(arch, i, j0, 0);
        } else {
          assert l in Row(arch, i, j0 + 1);
        }
      }
    }
  }

  /** `NewMLP`: validates the architecture, then builds the id layers and
      wires consecutive layers completely. */
  function NewMLP(arch: seq<int>): (r: Result<Net, NetError>)
    ensures r.Err? <==> !ValidArch(arch)
    ensures |arch| < 3 ==> r == Err(TooFewLayers(|arch|))
    // The first offending size is the one reported.
    ensures |arch| >= 3 && r.Err? ==> exists i :: 0 <= i < |arch| && r == Err(LayerTooSmall(arch[i])) && arch[i] < 1
                                       && forall i' :: 0 <= i' < i ==> arch[i'] >= 1
    ensures r.Ok? ==> Valid(r.value) && r.value.arch == arch
    ensures r.Ok? ==> forall i, j :: 0 <= i < |arch| && 0 <= j < arch[i] ==> r.value.layers[i][j] == UnitId(i, j)
    ensures r.Ok? ==> forall i: nat, j: nat, k: nat :: InRange(arch, i, j, k) ==> Edge(|arch|, i, j, k) in r.value.links
    ensures r.Ok? ==> forall l :: l in r.value.links ==>
      exists i: nat, j: nat, k: nat :: InRange(arch, i, j, k) && l == Edge(|arch|, i, j, k)
  {
    if |arch| < 3 then Err(TooFewLayers(|arch|))
    else match FirstTooSmall(arch)
      case Some(i) => Err(LayerTooSmall(arch[i]))
      case None =>
        Ok(Net(arch, AllLayerIds(arch), Wire(arch, 0)))
  }

  /** Every link joins a unit to one in the next layer: parsing the ids of
      its ends gives consecutive layer indices. No unit is linked to a
      unit of a non-adjacent layer. */
  lemma LinksJoinAdjacentLayers(arch: seq<int>, l: Link)
    requires NewMLP(arch).Ok? && l in NewMLP(arch).value.links
    ensures Parse(l.src).Some? && Parse(l.dst).Some?
    ensures Parse(l.dst).value.0 == Parse(l.src).value.0 + 1
    ensures Parse(l.dst).value.0 < |arch|
    ensures Parse(l.src).value.1 < arch[Parse(l.src).value.0]
    ensures Parse(l.dst).value.1 < arch[Parse(l.dst).value.0]
  {
    var i: nat, j: nat, k: nat :| InRange(arch, i, j, k) && l == Edge(|arch|, i, j, k);
  }

  /** The ids of all units of a network are pairwise distinct. */
  lemma IdsDistinct(arch: seq<int>, i1: nat, j1: nat, i2: nat, j2: nat)
    requires ValidArch(arch)
    requires i1 < |arch| && j1 < arch[i1] && i2 < |arch| && j2 < arch[i2]
    requires (i1, j1) != (i2, j2)
    ensures NewMLP(arch).Ok?
    ensures NewMLP(arch).value.layers[i1][j1] != NewMLP(arch).value.layers[i2][j2]
  {
    if UnitId(i1, j1) == UnitId(i2, j2) {
      UnitIdInjective(i1, j1, i2, j2);
    }
  }

  /** What a network forward pass sends and receives: the value sent to
      each input unit, and the value received from each output unit. */
  datatype Pass = Pass(fed: seq<(string, real)>, received: seq<real>)

  /** `Net.Forward`: checks the input width, sends `data[i]` to input unit
      `i`, then receives one value from each output unit in order;
      `emitted(i)` is what output unit `i` sends. */
  function Forward(n: Net, data: seq<real>, emitted: nat -> real): (r: Result<Pass, NetError>)
    requires Valid(n)
    ensures r.Err? <==> |data| != n.arch[0]
    ensures r.Err? ==> r.error == InputDim(|data|, n.arch[0])
    ensures r.Ok? ==> |r.value.fed| == n.arch[0]
    ensures r.Ok? ==> forall i :: 0 <= i < |data| ==> r.value.fed[i] == (n.layers[0][i], data[i])
    ensures r.Ok? ==> |r.value.received| == n.arch[|n.arch| - 1]
    ensures r.Ok? ==> forall i :: 0 <= i < |r.value.received| ==> r.value.received[i] == emitted(i)
  {
    if |data| != n.arch[0] then Err(InputDim(|data|, n.arch[0]))
    else
      var last := |n.arch| - 1;
      Ok(Pass(seq(|data|, i requires 0 <= i < |data| => (n.layers[0][i], data[i])),
              seq(n.arch[last], i requires 0 <= i => emitted(i))))
  }

  /** `Net.Backward`: checks the gradient width, sends `grad[i]` to output
      unit `i`, then receives one gradient from each input unit in order;
      `emitted(i)` is what input unit `i` sends back. */
  function Backward(n: Net, grad: seq<real>, emitted: nat -> real): (r: Result<Pass, NetError>)
    requires Valid(n)
    ensures r.Err? <==> |grad| != n.arch[|n.arch| - 1]
    ensures r.Err? ==> r.error == GradDim(|grad|, n.arch[|n.arch| - 1])
    ensures r.Ok? ==> |r.value.fed| == n.arch[|n.arch| - 1]
    ensures r.Ok? ==> forall i :: 0 <= i < |grad| ==> r.value.fed[i] == (n.layers[|n.arch| - 1][i], grad[i])
    ensures r.Ok? ==> |r.value.received| == n.arch[0]
    ensures r.Ok? ==> forall i :: 0 <= i < |r.value.received| ==> r.value.received[i] == emitted(i)
  {
    var last := |n.arch| - 1;
    if |grad| != n.arch[last] then Err(GradDim(|grad|, n.arch[last]))
    else
      Ok(Pass(seq(|grad|, i requires 0 <= i < |grad| => (n.layers[last][i], grad[i])),
              seq(n.arch[0], i requires 0 <= i => emitted(i))))
  }

  /** The phase trace of the loop `start` runs for each unit, over its
      first `iterations` iterations: forward every time, backward when
      training, a step every `updateFreq`-th iteration when training, and no
      completion report. It records which phases run, not their effect on
      a unit; the latter is `Neuron.Start` for the units of neuron.go. */
  function Loop(train: bool, updateFreq: int, iterations: nat): (t: seq<Schedule.Phase>)
    ensures Schedule.Count(t, Schedule.ForwardPass) == iterations
    ensures Schedule.Count(t, Schedule.BackwardPass) == (if train then iterations else 0)
    ensures Schedule.Count(t, Schedule.StepPass) == (if train && updateFreq > 0 then iterations / updateFreq else 0)
    ensures Schedule.Count(t, Schedule.Done) == 0
  {
    Schedule.TraceCounts(train, updateFreq, iterations, false);
    Schedule.Trace(train, updateFreq, iterations, false)
  }
}

=== FILE: neuron.dfy ===
/** The neuron actor of neuron.go. A unit's channels are represented by the
    ids of the peers they lead to: `output` holds the ids of the downstream
    units it sends activations to (plus `_OUTPUT` for the external sink),
    `outputB` the ids of the upstream units it sends gradients back to.
    What a unit receives during a pass is given as a sequence of signals in
    arrival order; what it sends is returned as a map from destination id
    to signal. */
module Neuron {
  import opened Results
  import opened Params
  import Activations
  import Optim
  import Schedule

  const InputId: string := "_INPUT"
  const OutputId: string := "_OUTPUT"
  const BiasId: string := "_BIAS"

  /** A message between units: the sender's id and a value. */
  datatype Signal = Signal(id: string, value: real)

  datatype Unit = Unit(
    id: string,
    w: Weight,
    nin: nat,
    activ: Activations.Activation,
    opt: Option<Optim.SGD>,
    output: set<string>,
    outputB: set<string>)

  datatype UnitError =
    | Blocked            // a receive the given arrivals cannot satisfy
    | NoOptimizer(unit: string)

  /** The bookkeeping invariant of a unit's connections: it waits for one
      forward signal per weight other than the bias, and it sends gradients
      back to exactly the peers it holds a weight for. */
  ghost predicate Wired(u: Unit) {
    && u.nin == |u.w.Keys - {BiasId}|
    && u.outputB == u.w.Keys - {BiasId, InputId}
  }

  // ---------------------------------------------------------------------
  // Construction and wiring

  /** `newUnit`: no weights, no connections, no optimizer. */
  function NewUnit(id: string, activ: Activations.Activation): (u: Unit)
    ensures u.id == id && u.activ == activ && Wired(u)
    ensures u.w == map[] && u.output == {} && u.opt.None?
  {
    Unit(id, map[], 0, activ, None, {}, {})
  }

  /** `feedIn`: an untrainable unit weight on the external input. */
  function FeedIn(u: Unit): (u': Unit)
    ensures u'.w.Keys == u.w.Keys + {InputId}
    ensures u'.w[InputId] == Param(1.0, false, 0.0, 0.0)
    ensures forall k :: k in u.w && k != InputId ==> u'.w[k] == u.w[k]
    ensures u'.nin == u.nin + 1
    ensures u' == u.(w := u'.w, nin := u'.nin)
    ensures Wired(u) && InputId !in u.w ==> Wired(u')
  {
    var u' := u.(w := Init(u.w, InputId, 1.0, false), nin := u.nin + 1);
    AddInputKeepsWired(u, u');
    u'
  }

  lemma AddInputKeepsWired(u: Unit, u': Unit)
    requires u'.w.Keys == u.w.Keys + {InputId} && u'.nin == u.nin + 1 && u'.outputB == u.outputB
    ensures Wired(u) && InputId !in u.w ==> Wired(u')
  {
    if Wired(u) && InputId !in u.w {
      AddFreshKey(u.w.Keys, InputId, {BiasId});
      assert u'.w.Keys - {BiasId, InputId} == u.w.Keys - {BiasId, InputId};
    }
  }

  /** `feedOut`: a send to the external output sink. */
  function FeedOut(u: Unit): (u': Unit)
    ensures u'.output == u.output + {OutputId}
    ensures u' == u.(output := u'.output)
    ensures Wired(u) ==> Wired(u')
  {
    u.(output := u.output + {OutputId})
  }

  /** `newInputUnit`: identity activation, fed by the external input
      through a fixed weight of 1. */
  function NewInputUnit(id: string): (u: Unit)
    ensures u.id == id && u.activ == Activations.Identity && Wired(u)
    ensures u.w == map[InputId := Param(1.0, false, 0.0, 0.0)]
    ensures u.nin == 1 && u.output == {} && u.outputB == {}
  {
    FeedIn(NewUnit(id, Activations.Identity))
  }

  /** `newHiddenUnit`: ReLU activation and a trainable bias of 0.1. */
  function NewHiddenUnit(id: string): (u: Unit)
    ensures u.id == id && u.activ.Relu? && Wired(u)
    ensures u.w == map[BiasId := Param(0.1, true, 0.0, 0.0)]
    ensures u.nin == 0 && u.output == {} && u.outputB == {}
  {
    var u := NewUnit(id, Activations.Relu(0.0));
    var u' := u.(w := Init(u.w, BiasId, 0.1, true));
    assert u'.w.Keys - {BiasId} == {};
    u'
  }

  /** `newOutputUnit`: identity activation, a trainable bias of 0, and a
      single send to the external output sink. */
  function NewOutputUnit(id: string): (u: Unit)
    ensures u.id == id && u.activ == Activations.Identity && Wired(u)
    ensures u.w == map[BiasId := Param(0.0, true, 0.0, 0.0)]
    ensures u.nin == 0 && u.output == {OutputId} && u.outputB == {}
  {
    var u := NewUnit(id, Activations.Identity);
    var u' := u.(w := Init(u.w, BiasId, 0.0, true));
    assert u'.w.Keys - {BiasId} == {};
    FeedOut(u')
  }

  /** `randUnif(a, b)` for a draw `sample` of the uniform generator on [0, 1). */
  function RandUnif(a: real, b: real, sample: real): (r: real)
    requires 0.0 <= sample < 1.0
    ensures a < b ==> a <= r < b
    ensures a == b ==> r == a
  {
    if a < b then InUnitInterval(a, b, sample); a + (b - a) * sample
    else a + (b - a) * sample
  }

  lemma InUnitInterval(a: real, b: real, s: real)
    requires a < b && 0.0 <= s < 1.0
    ensures a <= a + (b - a) * s < b
  {
    var d := b - a;
    var m := d * s;
    ProductPositive(d, 1.0 - s);
    assert d * (1.0 - s) == d - m;
    assert m < d;
    if s > 0.0 {
      ProductPositive(d, s);
      assert m > 0.0;
    } else {
      assert m == 0.0;
    }
    assert a <= a + m < b;
  }

  lemma ProductPositive(x: real, y: real)
    requires x > 0.0 && y > 0.0
    ensures x * y > 0.0
  {
  }

  /** `connect(u, u2)`: `u` starts sending to `u2`, and `u2` gains a fresh
      trainable weight for `u`, a gradient route back to `u`, and one more
      expected forward signal. `sample` is the random draw for the weight. */
  function Connect(u: Unit, u2: Unit, sample: real): (r: (Unit, Unit))
    requires 0.0 <= sample < 1.0
    ensures r.0 == u.(output := u.output + {u2.id})
    ensures r.1.w.Keys == u2.w.Keys + {u.id}
    ensures r.1.w[u.id].requiresGrad && -0.01 <= r.1.w[u.id].data < 0.01
    ensures r.1.w[u.id].value == 0.0 && r.1.w[u.id].grad == 0.0
    ensures forall k :: k in u2.w && k != u.id ==> r.1.w[k] == u2.w[k]
    ensures r.1.outputB == u2.outputB + {u.id}
    ensures r.1.nin == u2.nin + 1
    ensures r.1 == u2.(w := r.1.w, outputB := r.1.outputB, nin := r.1.nin)
  {
    (u.(output := u.output + {u2.id}),
     u2.(w := Init(u2.w, u.id, RandUnif(-0.01, 0.01, sample), true),
         outputB := u2.outputB + {u.id},
         nin := u2.nin + 1))
  }

  /** A connection from a peer `u2` has no weight for yet keeps both
      units wired. The reserved ids are excluded because connecting from a
      unit named like the bias or the input would overwrite that weight. */
  lemma ConnectKeepsWired(u: Unit, u2: Unit, sample: real)
    requires 0.0 <= sample < 1.0
    requires Wired(u) && Wired(u2)
    requires u.id !in u2.w && u.id != BiasId && u.id != InputId
    ensures Wired(Connect(u, u2, sample).0) && Wired(Connect(u, u2, sample).1)
  {
    AddFreshKey(u2.w.Keys, u.id, {BiasId});
    AddFreshKey(u2.w.Keys, u.id, {BiasId, InputId});
  }

  lemma AddFreshKey(keys: set<string>, x: string, excluded: set<string>)
    requires x !in keys && x !in excluded
    ensures (keys + {x}) - excluded == (keys - excluded) + {x}
    ensures |(keys + {x}) - excluded| == |keys - excluded| + 1
  {
    assert (keys + {x}) - excluded == (keys - excluded) + {x};
  }

  // ---------------------------------------------------------------------
  // Forward pass

  /** What one received signal adds to the pre-activation: the sender's
      weight times the value, or nothing from a sender without a weight. */
  function Contribution(w: Weight, s: Signal): real {
    if s.id in w then w[s.id].data * s.value else 0.0
  }

  /** The weighted fan-in of a sequence of received signals. */
  function FanIn(w: Weight, s: seq<Signal>): real {
    if s == [] then 0.0 else FanIn(w, s[..|s| - 1]) + Contribution(w, s[|s| - 1])
  }

  /** The value of the last signal in `s` from sender `k`, or `dflt` when
      `k` sent nothing. */
  function LastValue(s: seq<Signal>, k: string, dflt: real): real {
    if s == [] then dflt
    else if s[|s| - 1].id == k then s[|s| - 1].value
    else LastValue(s[..|s| - 1], k, dflt)
  }

  /** The bias value, which `Weight.forward(_BIAS, 1.0)` contributes. */
  function BiasData(w: Weight): real {
    if BiasId in w then w[BiasId].data else 0.0
  }

  lemma {:induction false} FanInFront(w: Weight, s: seq<Signal>)
    requires s != []
    ensures FanIn(w, s) == Contribution(w, s[0]) + FanIn(w, s[1..])
    decreases |s|
  {
    if |s| > 1 {
      assert s[..|s| - 1][1..] == s[1..][..|s[1..]| - 1];
      FanInFront(w, s[..|s| - 1]);
    }
  }

  lemma {:induction false} LastValueFront(s: seq<Signal>, k: string, dflt: real)
    requires s != []
    ensures LastValue(s, k, dflt) == LastValue(s[1..], k, if s[0].id == k then s[0].value else dflt)
    decreases |s|
  {
    if |s| > 1 {
      assert s[..|s| - 1][1..] == s[1..][..|s[1..]| - 1];
      LastValueFront(s[..|s| - 1], k, dflt);
    }
  }

  lemma {:induction false} FanInSameData(w: Weight, w': Weight, s: seq<Signal>)
    requires SameData(w, w')
    ensures FanIn(w, s) == FanIn(w', s)
    decreases |s|
  {
    if s != [] {
      FanInSameData(w, w', s[..|s| - 1]);
    }
  }

  /** The receive loop of `forward`: each signal adds its contribution to
      `act`, and a trainable weight caches the value of the last signal from
      its sender. */
  function Accumulate(w: Weight, act: real, s: seq<Signal>): (r: (Weight, real))
    ensures r.1 == act + FanIn(w, s)
    ensures r.0.Keys == w.Keys
    ensures forall k :: k in w ==>
      r.0[k] == w[k].(value := if w[k].requiresGrad then LastValue(s, k, w[k].value) else w[k].value)
    decreases |s|
  {
    if s == [] then (w, act)
    else
      var (w1, c) := Params.Forward(w, s[0].id, s[0].value);
      var r := Accumulate(w1, act + c, s[1..]);
      FanInFront(w, s);
      FanInSameData(w, w1, s[1..]);
      forall k | k in w && w[k].requiresGrad ensures LastValue(s, k, w[k].value) == LastValue(s[1..], k, w1[k].value) {
        LastValueFront(s, k, w[k].value);
      }
      r
  }

  /** The result of a forward pass: the updated unit, its pre-activation and
      the signal sent to each destination. */
  datatype Fired = Fired(unit: Unit, preact: real, sent: map<string, Signal>)

  /** `forward`: seeds the pre-activation with the bias, adds the weighted
      values of the first `nin` signals received, fires the activation and
      sends the result, tagged with the unit's id, to every destination.
      With fewer than `nin` signals the unit is still waiting. */
  function Forward(u: Unit, received: seq<Signal>): (r: Result<Fired, UnitError>)
    ensures r.Err? <==> |received| < u.nin
    ensures r.Err? ==> r.error == Blocked
    ensures r.Ok? ==> r.value.preact == BiasData(u.w) + FanIn(u.w, received[..u.nin])
    ensures r.Ok? ==> r.value.unit.activ == Activations.Forward(u.activ, r.value.preact).0
    ensures r.Ok? ==> r.value.sent.Keys == u.output
    ensures r.Ok? ==> forall k :: k in r.value.sent ==>
      r.value.sent[k] == Signal(u.id, Activations.Forward(u.activ, r.value.preact).1)
    // Only the cached inputs of trainable weights change: the bias caches 1,
    // any other weight the last value its sender sent.
    ensures r.Ok? ==> r.value.unit == u.(w := r.value.unit.w, activ := r.value.unit.activ)
    ensures r.Ok? ==> r.value.unit.w.Keys == u.w.Keys
    ensures r.Ok? ==> forall k :: k in u.w ==>
      r.value.unit.w[k] == u.w[k].(value := if !u.w[k].requiresGrad then u.w[k].value
                                            else LastValue(received[..u.nin], k, if k == BiasId then 1.0 else u.w[k].value))
  {
    if |received| < u.nin then Err(Blocked)
    else
      var (w0, b) := Params.Forward(u.w, BiasId, 1.0);
      var (w1, preact) := Accumulate(w0, b, received[..u.nin]);
      FanInSameData(u.w, w0, received[..u.nin]);
      var (activ, out) := Activations.Forward(u.activ, preact);
      Ok(Fired(u.(w := w1, activ := activ), preact, map k | k in u.output :: Signal(u.id, out)))
  }

  lemma {:induction false} FanInAppend(w: Weight, a: seq<Signal>, b: seq<Signal>)
    ensures FanIn(w, a + b) == FanIn(w, a) + FanIn(w, b)
    decreases |b|
  {
    if b == [] {
      assert a + b == a;
    } else {
      assert (a + b)[..|a + b| - 1] == a + b[..|b| - 1];
      FanInAppend(w, a, b[..|b| - 1]);
    }
  }

  /** Taking one signal out of the middle of a sequence removes exactly
      its contribution. */
  lemma FanInRemove(w: Weight, b: seq<Signal>, i: nat)
    requires i < |b|
    ensures FanIn(w, b) == Contribution(w, b[i]) + FanIn(w, b[..i] + b[i + 1..])
  {
    assert b == (b[..i] + [b[i]]) + b[i + 1..];
    FanInAppend(w, b[..i] + [b[i]], b[i + 1..]);
    FanInAppend(w, b[..i], [b[i]]);
    FanInAppend(w, b[..i], b[i + 1..]);
    assert [b[i]][..0] == [];
  }

  lemma MultisetRemove<T>(a: seq<T>, b: seq<T>, i: nat)
    requires a != [] && i < |b| && b[i] == a[0]
    requires multiset(a) == multiset(b)
    ensures multiset(a[1..]) == multiset(b[..i] + b[i + 1..])
  {
    assert a == [a[0]] + a[1..];
    assert multiset(a) == multiset{a[0]} + multiset(a[1..]);
    assert b == b[..i] + [b[i]] + b[i + 1..];
    assert multiset(b) == multiset(b[..i]) + multiset{b[i]} + multiset(b[i + 1..]);
    assert multiset(b[..i] + b[i + 1..]) == multiset(b[..i]) + multiset(b[i + 1..]);
    calc {
      multiset(a[1..]);
      multiset(a) - multiset{a[0]};
      multiset(b) - multiset{b[i]};
      multiset(b[..i] + b[i + 1..]);
    }
  }

  /** The fan-in of a multiset of signals does not depend on the order in
      which they arrive. */
  lemma {:induction false} FanInPermutation(w: Weight, a: seq<Signal>, b: seq<Signal>)
    requires multiset(a) == multiset(b)
    ensures FanIn(w, a) == FanIn(w, b)
    decreases |a|
  {
    if a != [] {
      assert a[0] in multiset(b);
      var i :| 0 <= i < |b| && b[i] == a[0];
      MultisetRemove(a, b, i);
      FanInPermutation(w, a[1..], b[..i] + b[i + 1..]);
      FanInRemove(w, b, i);
      FanInFront(w, a);
    }
  }

  /** Receipt is keyed by sender id, so the pre-activation and everything
      the unit sends are independent of the arrival order. */
  lemma ForwardOrderIndependent(u: Unit, a: seq<Signal>, b: seq<Signal>)
    requires |a| >= u.nin && |b| >= u.nin
    requires multiset(a[..u.nin]) == multiset(b[..u.nin])
    ensures Forward(u, a).Ok? && Forward(u, b).Ok?
    ensures Forward(u, a).value.preact == Forward(u, b).value.preact
    ensures Forward(u, a).value.sent == Forward(u, b).value.sent
    ensures Forward(u, a).value.unit.activ == Forward(u, b).value.unit.activ
  {
    FanInPermutation(u.w, a[..u.nin], b[..u.nin]);
  }

  // ---------------------------------------------------------------------
  // Backward pass

  /** The sum of the values of received gradient signals. */
  function SumValues(s: seq<Signal>): real {
    if s == [] then 0.0 else SumValues(s[..|s| - 1]) + s[|s| - 1].value
  }

  /** Every weight after a backward pass of gradient `g`. */
  function AccrueAll(w: Weight, g: real): (w': Weight)
    ensures w'.Keys == w.Keys
  {
    map k | k in w :: Accrue(w[k], g)
  }

  /** The gradients sent upstream for gradient `g`: one per weight that has
      a route back, through that weight. */
  function Upstream(u: Unit, g: real): (m: map<string, Signal>)
    ensures m.Keys == u.w.Keys * u.outputB
  {
    map k | k in u.w && k in u.outputB :: Signal(u.id, u.w[k].data * g)
  }

  /** `for k := range u.W.Params { ... }` of `backward`, over the key
      enumeration `ids`: accrue each weight and send its gradient upstream
      when a route back exists. */
  function BackwardInOrder(u: Unit, g: real, w: Weight, sent: map<string, Signal>, ids: seq<string>): (r: (map<string, Signal>, Weight))
    requires forall i :: 0 <= i < |ids| ==> ids[i] in w
    // Weights the enumeration does not reach keep their state; none is added.
    ensures r.1.Keys == w.Keys
    ensures forall k :: k in w && k !in ids ==> r.1[k] == w[k]
    // Only upstream peers receive a gradient, and earlier sends to peers not
    // visited are kept.
    ensures r.0.Keys <= sent.Keys + u.outputB
    ensures forall k :: k in sent && k !in ids ==> k in r.0 && r.0[k] == sent[k]
    decreases |ids|
  {
    if ids == [] then (sent, w)
    else
      var (w', gi) := Params.Backward(w, ids[0], g);
      var sent' := if ids[0] in u.outputB then sent[ids[0] := Signal(u.id, gi)] else sent;
      BackwardInOrder(u, g, w', sent', ids[1..])
  }

  /** The result of a backward pass: the updated unit, the gradient after
      the activation's derivative, and the signal sent to each upstream peer. */
  datatype Propagated = Propagated(unit: Unit, grad: real, sent: map<string, Signal>)

  /** `backward`: sums the first `len(output)` gradients received, applies
      the activation's derivative, accrues every weight's gradient and sends
      each upstream peer its share. With fewer gradients the unit is still
      waiting. */
  function Backward(u: Unit, received: seq<Signal>): (r: Result<Propagated, UnitError>)
    ensures r.Err? <==> |received| < |u.output|
    ensures r.Err? ==> r.error == Blocked
    ensures r.Ok? ==> r.value.grad == Activations.Backward(u.activ, SumValues(received[..|u.output|]))
    ensures r.Ok? ==> r.value.unit == u.(w := r.value.unit.w)
    // Every weight accrues the gradient; nothing else about the unit changes.
    ensures r.Ok? ==> r.value.unit.w.Keys == u.w.Keys
    ensures r.Ok? ==> forall k :: k in u.w ==> r.value.unit.w[k] == Accrue(u.w[k], r.value.grad)
    // Each upstream peer with a weight receives the gradient through that weight.
    ensures r.Ok? ==> r.value.sent.Keys == u.w.Keys * u.outputB
    ensures r.Ok? ==> forall k :: k in r.value.sent ==> r.value.sent[k] == Signal(u.id, u.w[k].data * r.value.grad)
  {
    if |received| < |u.output| then Err(Blocked)
    else
      var g := Activations.Backward(u.activ, SumValues(received[..|u.output|]));
      Ok(Propagated(u.(w := AccrueAll(u.w, g)), g, Upstream(u, g)))
  }

  /** The weights of `w` after accruing `g` on the ids in `ids` only. */
  function AccrueOn(w: Weight, g: real, ids: set<string>): (w': Weight)
    ensures w'.Keys == w.Keys
  {
    map k | k in w :: if k in ids then Accrue(w[k], g) else w[k]
  }

  /** The upstream sends for the ids in `ids` only. */
  function UpstreamOn(u: Unit, g: real, ids: set<string>): map<string, Signal> {
    map k | k in ids && k in u.w && k in u.outputB :: Signal(u.id, u.w[k].data * g)
  }

  /** Go visits the weights in an unspecified order; every duplicate-free
      enumeration of the keys yields the same weights and the same sends. */
  lemma BackwardAnyOrder(u: Unit, g: real, ids: seq<string>)
    requires forall i, j :: 0 <= i < j < |ids| ==> ids[i] != ids[j]
    requires (set i | 0 <= i < |ids| :: ids[i]) == u.w.Keys
    ensures forall i :: 0 <= i < |ids| ==> ids[i] in u.w
    ensures BackwardInOrder(u, g, u.w, map[], ids) == (Upstream(u, g), AccrueAll(u.w, g))
  {
    BackwardInOrderIsPointwise(u, g, u.w, map[], ids);
    assert map[] + UpstreamOn(u, g, u.w.Keys) == Upstream(u, g);
    assert AccrueOn(u.w, g, u.w.Keys) == AccrueAll(u.w, g);
  }

  lemma {:induction false} BackwardInOrderIsPointwise(u: Unit, g: real, w: Weight, sent: map<string, Signal>, ids: seq<string>)
    requires forall i :: 0 <= i < |ids| ==> ids[i] in w
    requires forall i, j :: 0 <= i < j < |ids| ==> ids[i] != ids[j]
    requires forall k :: k in w ==> k in u.w && w[k].data == u.w[k].data
    ensures var all := set i | 0 <= i < |ids| :: ids[i];
            BackwardInOrder(u, g, w, sent, ids) == (sent + UpstreamOn(u, g, all), AccrueOn(w, g, all))
    decreases |ids|
  {
    var all := set i | 0 <= i < |ids| :: ids[i];
    if ids == [] {
      assert all == {};
      assert UpstreamOn(u, g, all) == map[];
      assert sent + map[] == sent;
      assert AccrueOn(w, g, all) == w;
    } else {
      var id := ids[0];
      var (w', gi) := Params.Backward(w, id, g);
      var sent' := if id in u.outputB then sent[id := Signal(u.id, gi)] else sent;
      var rest := set i | 0 <= i < |ids[1..]| :: ids[1..][i];
      assert all == rest + {id} by {
        forall x | x in all ensures x in rest + {id} {
          var i :| 0 <= i < |ids| && ids[i] == x;
          if i > 0 { assert ids[1..][i - 1] == x; }
        }
      }
      assert id !in rest by {
        forall i | 0 <= i < |ids[1..]| ensures ids[1..][i] != id {
          assert ids[1..][i] == ids[i + 1];
        }
      }
      assert w' == w[id := Accrue(w[id], g)];
      BackwardInOrderIsPointwise(u, g, w', sent', ids[1..]);
      BackwardPeel(u, g, w, sent, id, rest);
    }
  }

  /** Visiting `id` first and then the ids of `rest` together is visiting
      all of them together. */
  lemma BackwardPeel(u: Unit, g: real, w: Weight, sent: map<string, Signal>, id: string, rest: set<string>)
    requires id in w && id in u.w && w[id].data == u.w[id].data && id !in rest
    ensures var (w', gi) := Params.Backward(w, id, g);
            var sent' := if id in u.outputB then sent[id := Signal(u.id, gi)] else sent;
            (sent' + UpstreamOn(u, g, rest), AccrueOn(w', g, rest))
              == (sent + UpstreamOn(u, g, rest + {id}), AccrueOn(w, g, rest + {id}))
  {
    var (w', gi) := Params.Backward(w, id, g);
    assert w' == w[id := Accrue(w[id], g)];
    assert gi == u.w[id].data * g;
    AccrueOnStep(w, g, id, rest);
    UpstreamOnStep(u, g, sent, id, rest);
  }

  lemma AccrueOnStep(w: Weight, g: real, id: string, rest: set<string>)
    requires id in w && id !in rest
    ensures AccrueOn(w[id := Accrue(w[id], g)], g, rest) == AccrueOn(w, g, rest + {id})
  {
  }

  lemma UpstreamOnStep(u: Unit, g: real, sent: map<string, Signal>, id: string, rest: set<string>)
    requires id in u.w && id !in rest
    ensures var sent' := if id in u.outputB then sent[id := Signal(u.id, u.w[id].data * g)] else sent;
            sent' + UpstreamOn(u, g, rest) == sent + UpstreamOn(u, g, rest + {id})
  {
    if id in u.outputB {
      var m := UpstreamOn(u, g, rest);
      var m' := UpstreamOn(u, g, rest + {id});
      assert m'.Keys == m.Keys + {id};
      assert m' == m[id := Signal(u.id, u.w[id].data * g)];
    } else {
      assert UpstreamOn(u, g, rest + {id}) == UpstreamOn(u, g, rest);
    }
  }

  /** Backward after Forward: the bias caches 1 in the forward pass, so its
      gradient grows by exactly the gradient the unit propagates. */
  lemma BiasGradientIsUnitGradient(u: Unit, fwd: seq<Signal>, bwd: seq<Signal>)
    requires BiasId in u.w && u.w[BiasId].requiresGrad
    requires |fwd| >= u.nin && |bwd| >= |u.output|
    requires forall i :: 0 <= i < u.nin ==> fwd[i].id != BiasId
    ensures Forward(u, fwd).Ok?
    ensures var u1 := Forward(u, fwd).value.unit;
            var r := Backward(u1, bwd).value;
            r.unit.w[BiasId].grad == u.w[BiasId].grad + r.grad
  {
    var s := fwd[..u.nin];
    NoSenderKeepsDefault(s, BiasId, 1.0);
  }

  lemma {:induction false} NoSenderKeepsDefault(s: seq<Signal>, k: string, dflt: real)
    requires forall i :: 0 <= i < |s| ==> s[i].id != k
    ensures LastValue(s, k, dflt) == dflt
    decreases |s|
  {
    if s != [] {
      NoSenderKeepsDefault(s[..|s| - 1], k, dflt);
    }
  }

  // ---------------------------------------------------------------------
  // Update and main loop

  /** `setOptimizer`: a fresh optimizer with the given hyperparameters. */
  function SetOptimizer(u: Unit, opt: Optim.SGD): (u': Unit)
    ensures u'.opt.Some? && u'.opt.value == Optim.New(opt)
    ensures u' == u.(opt := u'.opt)
  {
    u.(opt := Some(Optim.New(opt)))
  }

  /** `step`: one optimizer step on every weight, in any key order (see
      `Optim.StepAllKeysIsPointwise`); without an optimizer the unit panics. */
  function Step(u: Unit): (r: Result<Unit, UnitError>)
    ensures r.Err? <==> u.opt.None?
    ensures r.Err? ==> r.error == NoOptimizer(u.id)
    ensures r.Ok? ==> r.value == u.(w := r.value.w, opt := r.value.opt) && r.value.opt.Some?
    ensures r.Ok? ==> r.value.w.Keys == u.w.Keys
    ensures r.Ok? ==> forall k :: k in u.w ==> r.value.w[k] == Optim.Step(u.opt.value, k, u.w[k]).1
    ensures r.Ok? ==> forall k :: k in u.w && u.w[k].requiresGrad ==> r.value.w[k].grad == 0.0
    ensures r.Ok? ==> forall k :: k in u.w && !u.w[k].requiresGrad ==> r.value.w[k] == u.w[k]
    // The hyperparameters stay; each weight's momentum entry is the one its
    // own step leaves, and the entries of other ids are kept.
    ensures r.Ok? ==> var (o, o') := (u.opt.value, r.value.opt.value);
      o'.lr == o.lr && o'.momentum == o.momentum && o'.weightDecay == o.weightDecay
    ensures r.Ok? ==> var (o, o') := (u.opt.value, r.value.opt.value);
      forall k :: k in u.w ==> (k in o'.buf <==> k in Optim.Step(o, k, u.w[k]).0.buf)
    ensures r.Ok? ==> var (o, o') := (u.opt.value, r.value.opt.value);
      forall k :: k in u.w && k in o'.buf ==> o'.buf[k] == Optim.Step(o, k, u.w[k]).0.buf[k]
    ensures r.Ok? ==> var (o, o') := (u.opt.value, r.value.opt.value);
      forall k :: k !in u.w ==> (k in o'.buf <==> k in o.buf)
    ensures r.Ok? ==> var (o, o') := (u.opt.value, r.value.opt.value);
      forall k :: k in o.buf && k !in u.w ==> o'.buf[k] == o.buf[k]
  {
    match u.opt
    case None => Err(NoOptimizer(u.id))
    case Some(opt) =>
      Optim.StepEachWholeMap(opt, u.w);
      var (opt', w') := Optim.StepEach(opt, u.w, u.w.Keys);
      Ok(u.(w := w', opt := Some(opt')))
  }

  /** What one iteration of `start` produced. */
  datatype Round = Round(unit: Unit, fired: map<string, Signal>, propagated: map<string, Signal>, stepped: bool)

  /** One iteration of `start` with iteration counter `iter`: forward;
      then, when training, backward, and a step when one is due. `fwd` and
      `bwd` are the signals received in the two passes. */
  function Iterate(u: Unit, train: bool, updateFreq: int, iter: int, fwd: seq<Signal>, bwd: seq<Signal>): (r: Result<Round, UnitError>)
    ensures r == Err(Blocked) <==> |fwd| < u.nin || (train && |bwd| < |u.output|)
    ensures r.Err? && r.error.NoOptimizer? <==>
      |fwd| >= u.nin && (train && |bwd| >= |u.output|) && Schedule.StepDue(train, updateFreq, iter) && u.opt.None?
    ensures r.Ok? ==> (r.value.stepped <==> Schedule.StepDue(train, updateFreq, iter))
    // The forward pass always fires; the backward pass runs and propagates when training.
    ensures r.Ok? ==> Forward(u, fwd).Ok? && r.value.fired == Forward(u, fwd).value.sent
    ensures r.Ok? && train ==> Backward(Forward(u, fwd).value.unit, bwd).Ok?
    ensures r.Ok? && train ==> r.value.propagated == Backward(Forward(u, fwd).value.unit, bwd).value.sent
    ensures r.Ok? && !train ==> r.value.propagated == map[]
    // Only the weights, the activation state and the optimizer change.
    ensures r.Ok? ==> r.value.unit == u.(w := r.value.unit.w, activ := r.value.unit.activ, opt := r.value.unit.opt)
    ensures r.Ok? ==> r.value.unit.w.Keys == u.w.Keys
    // Without a step the data stays and the gradients accumulate.
    ensures r.Ok? && !r.value.stepped ==> r.value.unit.opt == u.opt
    ensures r.Ok? && !r.value.stepped ==> forall k :: k in u.w ==> r.value.unit.w[k].data == u.w[k].data
    ensures r.Ok? && train && !r.value.stepped ==> forall k :: k in u.w ==>
      r.value.unit.w[k].grad == Accrue(Forward(u, fwd).value.unit.w[k], Backward(Forward(u, fwd).value.unit, bwd).value.grad).grad
    ensures r.Ok? && !train ==> forall k :: k in u.w ==> r.value.unit.w[k].grad == u.w[k].grad
    // A step consumes every trainable gradient.
    ensures r.Ok? && r.value.stepped ==> forall k :: k in u.w && u.w[k].requiresGrad ==> r.value.unit.w[k].grad == 0.0
    // Without a step the unit is exactly as the last pass left it.
    ensures r.Ok? && !r.value.stepped ==>
      r.value.unit == (if train then Backward(Forward(u, fwd).value.unit, bwd).value.unit else Forward(u, fwd).value.unit)
    // The step is the optimizer step applied to the unit the backward pass left.
    ensures r.Ok? && r.value.stepped ==> train && Step(Backward(Forward(u, fwd).value.unit, bwd).value.unit).Ok?
    ensures r.Ok? && r.value.stepped ==> r.value.unit == Step(Backward(Forward(u, fwd).value.unit, bwd).value.unit).value
  {
    match Forward(u, fwd)
    case Err(e) => Err(e)
    case Ok(f) =>
      if !train then Ok(Round(f.unit, f.sent, map[], false))
      else match Backward(f.unit, bwd)
        case Err(e) => Err(e)
        case Ok(b) =>
          if Schedule.StepDue(train, updateFreq, iter) then
            match Step(b.unit)
            case Err(e) => Err(e)
            case Ok(u') => Ok(Round(u', f.sent, b.sent, true))
          else Ok(Round(b.unit, f.sent, b.sent, false))
  }

  /** A unit after some iterations of `start`, with the number of
      optimizer steps it took. */
  datatype Trained = Trained(unit: Unit, steps: nat)

  /** The first `|passes|` iterations of `start`, numbered from 1 as the
      loop's counter is; `passes[i]` holds the forward and backward
      signals of iteration `i + 1`. The first iteration that cannot
      complete decides the error. */
  function Start(u: Unit, train: bool, updateFreq: int, passes: seq<(seq<Signal>, seq<Signal>)>): (r: Result<Trained, UnitError>)
    // One step per `updateFreq` iterations when training, none otherwise.
    ensures r.Ok? ==> r.value.steps == (if train && updateFreq > 0 then |passes| / updateFreq else 0)
    // The wiring of the unit never changes.
    ensures r.Ok? ==> r.value.unit == u.(w := r.value.unit.w, activ := r.value.unit.activ, opt := r.value.unit.opt)
    ensures r.Ok? ==> r.value.unit.w.Keys == u.w.Keys
    // Until the first step the data and the optimizer stay as they were.
    ensures r.Ok? && r.value.steps == 0 ==> r.value.unit.opt == u.opt
    ensures r.Ok? && r.value.steps == 0 ==> forall k :: k in u.w ==> r.value.unit.w[k].data == u.w[k].data
    // An installed optimizer stays installed; the activation kind and the
    // trainability of every weight never change.
    ensures r.Ok? && u.opt.Some? ==> r.value.unit.opt.Some?
    ensures r.Ok? ==> r.value.unit.activ.Relu? == u.activ.Relu?
    ensures r.Ok? ==> forall k :: k in u.w ==> r.value.unit.w[k].requiresGrad == u.w[k].requiresGrad
    // Only a step can report a missing optimizer.
    ensures r.Err? && r.error.NoOptimizer? ==> u.opt.None?
    // Every iteration completes when its signals and gradients are on hand
    // and an optimizer is installed before the first step falls due.
    ensures (forall i :: 0 <= i < |passes| ==> |passes[i].0| >= u.nin && (train ==> |passes[i].1| >= |u.output|))
            && (u.opt.Some? || !(train && updateFreq > 0 && |passes| >= updateFreq))
            ==> r.Ok?
    decreases |passes|
  {
    if passes == [] then Ok(Trained(u, 0))
    else
      var n := |passes|;
      assert forall i :: 0 <= i < n - 1 ==> passes[..n - 1][i] == passes[i];
      assert u.opt.None? && train && updateFreq > 0 && n < updateFreq ==> n % updateFreq != 0;
      StepsDue(train, updateFreq, n);
      match Start(u, train, updateFreq, passes[..n - 1])
      case Err(e) => Err(e)
      case Ok(t) => Advance(t, train, updateFreq, n, passes[n - 1].0, passes[n - 1].1)
  }

  /** Iteration `n` of `start` on a unit trained so far: what `Start` needs
      to know about one more `Iterate`. */
  function Advance(t: Trained, train: bool, updateFreq: int, n: int, fwd: seq<Signal>, bwd: seq<Signal>): (r: Result<Trained, UnitError>)
    ensures r.Ok? ==> r.value.steps == t.steps + (if Schedule.StepDue(train, updateFreq, n) then 1 else 0)
    ensures r.Ok? ==> r.value.unit == t.unit.(w := r.value.unit.w, activ := r.value.unit.activ, opt := r.value.unit.opt)
    ensures r.Ok? ==> r.value.unit.w.Keys == t.unit.w.Keys
    ensures r.Ok? ==> r.value.unit.activ.Relu? == t.unit.activ.Relu?
    ensures r.Ok? ==> forall k :: k in t.unit.w ==> r.value.unit.w[k].requiresGrad == t.unit.w[k].requiresGrad
    ensures r.Ok? && t.unit.opt.Some? ==> r.value.unit.opt.Some?
    ensures r.Ok? && !Schedule.StepDue(train, updateFreq, n) ==> r.value.unit.opt == t.unit.opt
    ensures r.Ok? && !Schedule.StepDue(train, updateFreq, n) ==>
      forall k :: k in t.unit.w ==> r.value.unit.w[k].data == t.unit.w[k].data
    ensures r.Err? && r.error.NoOptimizer? ==> t.unit.opt.None?
    ensures (&& |fwd| >= t.unit.nin && (train ==> |bwd| >= |t.unit.output|)
             && (t.unit.opt.Some? || !Schedule.StepDue(train, updateFreq, n))) ==> r.Ok?
  {
    match Iterate(t.unit, train, updateFreq, n, fwd, bwd)
    case Err(e) => Err(e)
    case Ok(round) => Ok(Trained(round.unit, t.steps + if round.stepped then 1 else 0))
  }

  /** The last iteration of a successful run is `Iterate` on the unit the
      earlier iterations left. */
  lemma StartUnfolds(u: Unit, train: bool, updateFreq: int, passes: seq<(seq<Signal>, seq<Signal>)>)
    requires passes != [] && Start(u, train, updateFreq, passes).Ok?
    ensures var n := |passes|;
            var before := Start(u, train, updateFreq, passes[..n - 1]);
            && before.Ok?
            && Iterate(before.value.unit, train, updateFreq, n, passes[n - 1].0, passes[n - 1].1).Ok?
            && Start(u, train, updateFreq, passes).value.unit
               == Iterate(before.value.unit, train, updateFreq, n, passes[n - 1].0, passes[n - 1].1).value.unit
  {
  }

  /** Training without an optimizer panics at the first step that falls
      due, even when every signal and gradient is on hand. */
  lemma {:induction false} MissingOptimizerPanics(u: Unit, train: bool, updateFreq: int, passes: seq<(seq<Signal>, seq<Signal>)>)
    requires forall i :: 0 <= i < |passes| ==> |passes[i].0| >= u.nin && (train ==> |passes[i].1| >= |u.output|)
    requires u.opt.None? && train && updateFreq > 0 && |passes| >= updateFreq
    ensures Start(u, train, updateFreq, passes).Err?
    ensures Start(u, train, updateFreq, passes).error.NoOptimizer?
    decreases |passes|
  {
    var n := |passes|;
    assert forall i :: 0 <= i < n - 1 ==> passes[..n - 1][i] == passes[i];
    if n - 1 >= updateFreq {
      MissingOptimizerPanics(u, train, updateFreq, passes[..n - 1]);
    } else {
      assert n == updateFreq;
      assert (n - 1) / updateFreq == 0;
      assert n % updateFreq == 0;
    }
  }

  /** Going from iteration `n - 1` to `n`, the number of steps due grows by
      one exactly when iteration `n` is due for one. */
  lemma StepsDue(train: bool, updateFreq: int, n: nat)
    requires n >= 1
    ensures (if train && updateFreq > 0 then n / updateFreq else 0)
         == (if train && updateFreq > 0 then (n - 1) / updateFreq else 0)
            + (if Schedule.StepDue(train, updateFreq, n) then 1 else 0)
  {
    if train && updateFreq > 0 {
      Schedule.QuotientStep(n, updateFreq);
    }
  }

  /** The steps `Start` takes are the step phases of the unit's schedule,
      which also reports completion once per iteration. */
  lemma StartFollowsSchedule(u: Unit, train: bool, updateFreq: int, passes: seq<(seq<Signal>, seq<Signal>)>)
    requires Start(u, train, updateFreq, passes).Ok?
    ensures var t := Schedule.Trace(train, updateFreq, |passes|, true);
            && Start(u, train, updateFreq, passes).value.steps == Schedule.Count(t, Schedule.StepPass)
            && Schedule.Count(t, Schedule.Done) == |passes|
  {
    Schedule.TraceCounts(train, updateFreq, |passes|, true);
  }
}

=== FILE: optim.dfy ===
/** SGD with momentum and weight decay (optim.go). The optimizer keeps one
    momentum buffer entry per parameter id. */
module Optim {
  import opened Params

  datatype SGD = SGD(lr: real, momentum: real, weightDecay: real, buf: map<string, real>)

  /** `NewSGD`: the given hyperparameters and an empty momentum buffer. */
  function NewSGD(lr: real, momentum: real, weightDecay: real): (opt: SGD)
    ensures opt.lr == lr && opt.momentum == momentum && opt.weightDecay == weightDecay
    ensures opt.buf == map[]
  {
    SGD(lr, momentum, weightDecay, map[])
  }

  /** `SGD.New`: an independent optimizer sharing the hyperparameters of
      `opt` but none of its state. */
  function New(opt: SGD): (opt': SGD)
    ensures opt'.lr == opt.lr && opt'.momentum == opt.momentum
    ensures opt'.weightDecay == opt.weightDecay
    ensures opt'.buf == map[]
  {
    NewSGD(opt.lr, opt.momentum, opt.weightDecay)
  }

  /** The accumulated gradient plus the decay term, which is only added for
      a positive decay. */
  function EffectiveGrad(opt: SGD, p: Param): real {
    if opt.weightDecay > 0.0 then p.grad + opt.weightDecay * p.data else p.grad
  }

  /** The update direction for parameter `id`: the momentum buffer after
      this step when momentum is on (seeded with the effective gradient on
      the first step for `id`), the effective gradient otherwise. */
  function Velocity(opt: SGD, id: string, p: Param): real {
    var g := EffectiveGrad(opt, p);
    if opt.momentum > 0.0 then
      if id in opt.buf then opt.momentum * opt.buf[id] + g else g
    else g
  }

  /** `SGD.Step` on the parameter stored under `id`: returns the updated
      optimizer and parameter. */
  function Step(opt: SGD, id: string, p: Param): (r: (SGD, Param))
    // An untrainable parameter is skipped entirely.
    ensures !p.requiresGrad ==> r == (opt, p)
    // Only the value and the gradient of the parameter change; the gradient is consumed.
    ensures p.requiresGrad ==> r.1.grad == 0.0
    ensures r.1.requiresGrad == p.requiresGrad && r.1.value == p.value
    // The hyperparameters never change and only the buffer entry for `id` may.
    ensures r.0.lr == opt.lr && r.0.momentum == opt.momentum && r.0.weightDecay == opt.weightDecay
    ensures r.0.buf.Keys <= opt.buf.Keys + {id}
    ensures forall k :: k in opt.buf && k != id ==> k in r.0.buf && r.0.buf[k] == opt.buf[k]
    // Momentum: the first step seeds the buffer, later steps decay it.
    ensures p.requiresGrad && opt.momentum > 0.0 && id !in opt.buf ==>
      r.0.buf == opt.buf[id := EffectiveGrad(opt, p)]
    ensures p.requiresGrad && opt.momentum > 0.0 && id in opt.buf ==>
      r.0.buf == opt.buf[id := opt.momentum * opt.buf[id] + EffectiveGrad(opt, p)]
    // The update moves against the buffer, or against the plain effective gradient without momentum.
    ensures p.requiresGrad && opt.momentum > 0.0 ==> r.1.data == p.data - opt.lr * r.0.buf[id]
    ensures p.requiresGrad && opt.momentum <= 0.0 ==>
      r.0 == opt && r.1.data == p.data - opt.lr * EffectiveGrad(opt, p)
  {
    if !p.requiresGrad then (opt, p)
    else
      var v := Velocity(opt, id, p);
      var opt' := if opt.momentum > 0.0 then opt.(buf := opt.buf[id := v]) else opt;
      (opt', p.(data := p.data - opt.lr * v, grad := 0.0))
  }

  /** The buffer entries a step over the ids in `ids` writes. */
  function Refreshed(opt: SGD, w: Weight, ids: set<string>): map<string, real> {
    map k | k in ids && k in w && w[k].requiresGrad && opt.momentum > 0.0 :: Velocity(opt, k, w[k])
  }

  /** Every id in `ids` stepped as if it were the only one: the pointwise
      meaning of stepping a whole weight map. */
  function StepEach(opt: SGD, w: Weight, ids: set<string>): (SGD, Weight) {
    (opt.(buf := opt.buf + Refreshed(opt, w, ids)),
     map k | k in w :: if k in ids then Step(opt, k, w[k]).1 else w[k])
  }

  /** `for k, p := range W.Params { opt.Step(k, p) }`: the steps taken one
      after the other, in the enumeration order `ids` of the map's keys. */
  function StepInOrder(opt: SGD, w: Weight, ids: seq<string>): (r: (SGD, Weight))
    requires forall i :: 0 <= i < |ids| ==> ids[i] in w
    // The hyperparameters stay; parameters and buffer entries of ids the
    // enumeration does not reach are kept.
    ensures r.0.lr == opt.lr && r.0.momentum == opt.momentum && r.0.weightDecay == opt.weightDecay
    ensures r.1.Keys == w.Keys
    ensures forall k :: k in w && k !in ids ==> r.1[k] == w[k]
    ensures forall k :: k in opt.buf && k !in ids ==> k in r.0.buf && r.0.buf[k] == opt.buf[k]
    ensures forall k :: k in r.0.buf ==> k in opt.buf || k in ids
    decreases |ids|
  {
    if ids == [] then (opt, w)
    else
      var (opt', p') := Step(opt, ids[0], w[ids[0]]);
      StepInOrder(opt', w[ids[0] := p'], ids[1..])
  }

  /** A step on `id` does not change how any other id is stepped. */
  lemma StepIsolated(opt: SGD, id: string, p: Param, k: string, q: Param)
    requires k != id
    ensures Velocity(Step(opt, id, p).0, k, q) == Velocity(opt, k, q)
    ensures Step(Step(opt, id, p).0, k, q).1 == Step(opt, k, q).1
  {
  }

  /** Go enumerates map keys in an unspecified order; any duplicate-free
      enumeration of a subset of the keys steps each of them independently. */
  lemma {:induction false} StepInOrderIsPointwise(opt: SGD, w: Weight, ids: seq<string>)
    requires forall i :: 0 <= i < |ids| ==> ids[i] in w
    requires forall i, j :: 0 <= i < j < |ids| ==> ids[i] != ids[j]
    ensures StepInOrder(opt, w, ids) == StepEach(opt, w, set i | 0 <= i < |ids| :: ids[i])
    decreases |ids|
  {
    var all := set i | 0 <= i < |ids| :: ids[i];
    if ids == [] {
      assert all == {};
      assert Refreshed(opt, w, all) == map[];
      assert opt.buf + map[] == opt.buf;
      assert StepEach(opt, w, all).1 == w;
      assert StepEach(opt, w, all).0 == opt;
    } else {
      var id := ids[0];
      var (opt1, p1) := Step(opt, id, w[id]);
      var w1 := w[id := p1];
      var rest := set i | 0 <= i < |ids[1..]| :: ids[1..][i];
      assert all == rest + {id} by {
        forall x | x in all ensures x in rest + {id} {
          var i :| 0 <= i < |ids| && ids[i] == x;
          if i > 0 { assert ids[1..][i - 1] == x; }
        }
      }
      assert id !in rest by {
        forall i | 0 <= i < |ids[1..]| ensures ids[1..][i] != id {
          assert ids[1..][i] == ids[i + 1];
        }
      }
      StepInOrderIsPointwise(opt1, w1, ids[1..]);
      StepEachPeel(opt, w, id, rest);
    }
  }

  /** Stepping `id` first and then the ids of `rest` together is stepping
      all of them together. */
  lemma StepEachPeel(opt: SGD, w: Weight, id: string, rest: set<string>)
    requires id in w && id !in rest
    ensures var (opt1, p1) := Step(opt, id, w[id]);
            StepEach(opt1, w[id := p1], rest) == StepEach(opt, w, rest + {id})
  {
    var (opt1, p1) := Step(opt, id, w[id]);
    var (optA, wA) := StepEach(opt1, w[id := p1], rest);
    var (optB, wB) := StepEach(opt, w, rest + {id});
    forall k | k in w ensures wA[k] == wB[k] {
      if k != id && k in rest {
        StepIsolated(opt, id, w[id], k, w[k]);
      }
    }
    assert wA == wB;
    RefreshedUnaffected(opt, w, id, rest);
    StepWritesRefreshed(opt, w, id);
    RefreshedSplit(opt, w, rest, id);
    UnionSwap(opt.buf, Refreshed(opt, w, {id}), Refreshed(opt, w, rest));
    assert optA == optB;
  }

  /** The buffer a single step leaves behind. */
  lemma StepWritesRefreshed(opt: SGD, w: Weight, id: string)
    requires id in w
    ensures Step(opt, id, w[id]).0 == opt.(buf := opt.buf + Refreshed(opt, w, {id}))
  {
    if w[id].requiresGrad && opt.momentum > 0.0 {
      assert Refreshed(opt, w, {id}) == map[id := Velocity(opt, id, w[id])];
    } else {
      assert Refreshed(opt, w, {id}) == map[];
    }
  }

  /** A step on `id` leaves the buffer writes of the other ids as they were. */
  lemma RefreshedUnaffected(opt: SGD, w: Weight, id: string, ids: set<string>)
    requires id in w && id !in ids
    ensures var (opt', p') := Step(opt, id, w[id]);
            Refreshed(opt', w[id := p'], ids) == Refreshed(opt, w, ids)
  {
    var (opt', p') := Step(opt, id, w[id]);
    forall k | k in ids && k in w
      ensures Velocity(opt', k, w[id := p'][k]) == Velocity(opt, k, w[k])
    {
      StepIsolated(opt, id, w[id], k, w[k]);
    }
  }

  lemma RefreshedSplit(opt: SGD, w: Weight, ids: set<string>, id: string)
    requires id !in ids
    ensures Refreshed(opt, w, ids + {id}) == Refreshed(opt, w, ids) + Refreshed(opt, w, {id})
    ensures Refreshed(opt, w, ids).Keys !! Refreshed(opt, w, {id}).Keys
  {
  }

  /** Map union commutes on disjoint right operands. */
  lemma UnionSwap<K, V>(m: map<K, V>, a: map<K, V>, b: map<K, V>)
    requires a.Keys !! b.Keys
    ensures m + a + b == m + (b + a)
  {
  }

  /** Stepping a whole weight map, in any key order, is the pointwise step:
      every parameter is updated from its own gradient and its own buffer
      entry only. */
  lemma StepAllKeysIsPointwise(opt: SGD, w: Weight, ids: seq<string>)
    requires forall i, j :: 0 <= i < j < |ids| ==> ids[i] != ids[j]
    requires (set i | 0 <= i < |ids| :: ids[i]) == w.Keys
    ensures forall i :: 0 <= i < |ids| ==> ids[i] in w
    ensures var (opt', w') := StepInOrder(opt, w, ids);
            && w'.Keys == w.Keys
            && (forall k :: k in w ==> w'[k] == Step(opt, k, w[k]).1)
            && (forall k :: k in w ==> (k in opt'.buf <==> k in Step(opt, k, w[k]).0.buf))
            && (forall k :: k in opt'.buf && k in w ==> opt'.buf[k] == Step(opt, k, w[k]).0.buf[k])
            && (forall k :: k !in w ==> (k in opt'.buf <==> k in opt.buf))
            && (forall k :: k in opt.buf && k !in w ==> opt'.buf[k] == opt.buf[k])
  {
    StepInOrderIsPointwise(opt, w, ids);
    assert (set i | 0 <= i < |ids| :: ids[i]) == w.Keys;
    StepEachWholeMap(opt, w);
  }

  /** Stepping every key of `w` at once, read key by key. */
  lemma StepEachWholeMap(opt: SGD, w: Weight)
    ensures var (opt', w') := StepEach(opt, w, w.Keys);
            && w'.Keys == w.Keys
            && (forall k :: k in w ==> w'[k] == Step(opt, k, w[k]).1)
            && (forall k :: k in w ==> (k in opt'.buf <==> k in Step(opt, k, w[k]).0.buf))
            && (forall k :: k in opt'.buf && k in w ==> opt'.buf[k] == Step(opt, k, w[k]).0.buf[k])
            && (forall k :: k !in w ==> (k in opt'.buf <==> k in opt.buf))
            && (forall k :: k in opt.buf && k !in w ==> opt'.buf[k] == opt.buf[k])
  {
  }

  /** The sequence of steps of the package's SGD test: a decayed step, then
      two momentum steps with gradients 1 and -1 after the hyperparameters
      are changed in place. */
  lemma WorkedExample()
    ensures var p0 := Param(1.0, true, 0.0, 1.0);
            var (o1, p1) := Step(NewSGD(0.1, 0.0, 1.0), "000", p0);
            var (o2, p2) := Step(o1.(momentum := 0.9, weightDecay := 0.0), "000", p1.(grad := 1.0));
            var (o3, p3) := Step(o2, "000", p2.(grad := -1.0));
            p1.data == 0.8 && p2.data == 0.7 && o3.buf["000"] == -0.1 && p3.data == 0.71
  {
  }
}

=== FILE: params.dfy ===
/** A scalar parameter and a neuron's weight map (param.go, neuron.go:34-82).
    The map from peer id to parameter stands for `Weight.Params`; because the
    model is functional, every operation returns the updated map. */
module Params {

  /** `Data` is the value, `value` the input cached by the last forward pass,
      `grad` the accumulated gradient. */
  datatype Param = Param(data: real, requiresGrad: bool, value: real, grad: real)

  type Weight = map<string, Param>

  /** Two maps hold the same parameters up to their cached inputs and
      gradients: same keys, same values, same trainability. */
  ghost predicate SameData(w: Weight, w': Weight) {
    && w'.Keys == w.Keys
    && forall k :: k in w ==> w'[k].data == w[k].data && w'[k].requiresGrad == w[k].requiresGrad
  }

  /** `Weight.init`: a fresh parameter with zero cache and zero gradient,
      replacing any parameter already stored under `id`. */
  function Init(w: Weight, id: string, data: real, requiresGrad: bool): (w': Weight)
    ensures w'.Keys == w.Keys + {id}
    ensures w'[id].data == data && w'[id].requiresGrad == requiresGrad
    ensures w'[id].value == 0.0 && w'[id].grad == 0.0
    ensures forall k :: k in w && k != id ==> w'[k] == w[k]
  {
    w[id := Param(data, requiresGrad, 0.0, 0.0)]
  }

  /** `Weight.forward`: the weighted input from peer `id`, caching the input
      only on a trainable parameter. An unknown id contributes nothing. */
  function Forward(w: Weight, id: string, input: real): (r: (Weight, real))
    ensures id !in w ==> r.0 == w && r.1 == 0.0
    ensures id in w ==> r.1 == w[id].data * input
    ensures r.0.Keys == w.Keys
    ensures forall k :: k in w && k != id ==> r.0[k] == w[k]
    ensures id in w ==> r.0[id] == w[id].(value := if w[id].requiresGrad then input else w[id].value)
  {
    if id !in w then (w, 0.0)
    else
      var p := w[id];
      var w' := if p.requiresGrad then w[id := p.(value := input)] else w;
      (w', p.data * input)
  }

  /** A parameter after a backward pass of `grad` through it: a trainable
      parameter accumulates `grad` times its cached input, an untrainable
      one is left alone. */
  function Accrue(p: Param, grad: real): (p': Param)
    ensures p'.data == p.data && p'.requiresGrad == p.requiresGrad && p'.value == p.value
    ensures p.requiresGrad ==> p'.grad == p.grad + grad * p.value
    ensures !p.requiresGrad ==> p' == p
  {
    if p.requiresGrad then p.(grad := p.grad + grad * p.value) else p
  }

  /** `Weight.backward`: the gradient for peer `id` through its weight,
      accumulating `grad * cached input` on a trainable parameter. */
  function Backward(w: Weight, id: string, grad: real): (r: (Weight, real))
    ensures id !in w ==> r.0 == w && r.1 == 0.0
    ensures id in w ==> r.1 == w[id].data * grad
    ensures r.0.Keys == w.Keys
    ensures forall k :: k in w && k != id ==> r.0[k] == w[k]
    ensures id in w ==> r.0[id] == Accrue(w[id], grad)
  {
    if id !in w then (w, 0.0)
    else (w[id := Accrue(w[id], grad)], w[id].data * grad)
  }

  /** A forward then a backward through the same trainable parameter adds
      `grad * input` to its gradient: the cached input is the one the
      backward pass uses. */
  lemma ForwardThenBackward(w: Weight, id: string, input: real, grad: real)
    requires id in w && w[id].requiresGrad
    ensures Backward(Forward(w, id, input).0, id, grad).0[id].grad == w[id].grad + grad * input
  {
  }
}

=== FILE: results.dfy ===
/** Failure-carrying return values shared by every module of the model.
    A Go `panic` or a receive that never completes becomes an `Err`. */
module Results {

  datatype Option<+T> = None | Some(value: T)

  datatype Result<+T, +E> = Ok(value: T) | Err(error: E)
}

=== FILE: schedule.dfy ===
/** The endless per-unit loop of `start` (neuron.go:218-233 and
    net.go:149-163), cut off after a finite number of iterations and
    recorded as the sequence of phases it runs. Iterations are numbered
    from 1, as the loop's `step` counter is. */
module Schedule {

  datatype Phase = ForwardPass | BackwardPass | StepPass | Done

  /** A step is due on iteration `iter` when training with a positive update
      frequency that divides `iter`. */
  predicate StepDue(train: bool, updateFreq: int, iter: int) {
    train && updateFreq > 0 && iter % updateFreq == 0
  }

  /** How often `p` occurs in `s`. */
  function Count(s: seq<Phase>, p: Phase): nat {
    if s == [] then 0 else Count(s[..|s| - 1], p) + (if s[|s| - 1] == p then 1 else 0)
  }

  /** The phases of one iteration: forward; backward only when training;
      a step only when one is due; and, when the loop reports completion
      (neuron.go's `stepDone`), one completion report last. */
  function Iteration(train: bool, updateFreq: int, iter: int, reportDone: bool): (r: seq<Phase>)
    ensures |r| >= 1 && r[0] == ForwardPass
    ensures Count(r, ForwardPass) == 1
    ensures Count(r, BackwardPass) == (if train then 1 else 0)
    ensures Count(r, StepPass) == (if StepDue(train, updateFreq, iter) then 1 else 0)
    ensures Count(r, Done) == (if reportDone then 1 else 0)
    ensures reportDone ==> r[|r| - 1] == Done
    // Forward precedes backward, which precedes the step.
    ensures forall i, j :: 0 <= i < j < |r| && r[j] == BackwardPass ==> r[i] == ForwardPass
    ensures forall i, j :: 0 <= i < j < |r| && r[j] == StepPass ==> r[i] in {ForwardPass, BackwardPass}
  {
    var r := [ForwardPass]
      + (if train then [BackwardPass] else [])
      + (if StepDue(train, updateFreq, iter) then [StepPass] else [])
      + (if reportDone then [Done] else []);
    CountSplit([ForwardPass], if train then [BackwardPass] else []);
    var a := [ForwardPass] + (if train then [BackwardPass] else []);
    var b := if StepDue(train, updateFreq, iter) then [StepPass] else [];
    CountSplit(a, b);
    CountSplit(a + b, if reportDone then [Done] else []);
    r
  }

  /** Iterations 1 through `n` of the loop, in order. */
  function Trace(train: bool, updateFreq: int, n: nat, reportDone: bool): seq<Phase> {
    if n == 0 then [] else Trace(train, updateFreq, n - 1, reportDone) + Iteration(train, updateFreq, n, reportDone)
  }

  lemma {:induction false} CountSplit(a: seq<Phase>, b: seq<Phase>)
    ensures forall p :: Count(a + b, p) == Count(a, p) + Count(b, p)
    decreases |b|
  {
    if b == [] {
      assert a + b == a;
    } else {
      assert (a + b)[..|a + b| - 1] == a + b[..|b| - 1];
      CountSplit(a, b[..|b| - 1]);
    }
  }

  /** Going from `n - 1` to `n`, the quotient by `f` grows by one exactly
      when `f` divides `n`. */
  lemma QuotientStep(n: int, f: int)
    requires n >= 1 && f >= 1
    ensures n / f == (n - 1) / f + (if n % f == 0 then 1 else 0)
  {
    var q, r := (n - 1) / f, (n - 1) % f;
    assert n - 1 == q * f + r && 0 <= r < f;
    if r == f - 1 {
      assert n == (q + 1) * f;
      UniqueDivision(n, f, q + 1, 0);
    } else {
      assert n == q * f + (r + 1);
      UniqueDivision(n, f, q, r + 1);
    }
  }

  /** Division with remainder is unique. */
  lemma UniqueDivision(n: int, f: int, q: int, r: int)
    requires f >= 1 && 0 <= r < f && n == q * f + r
    ensures n / f == q && n % f == r
  {
    var q', r' := n / f, n % f;
    assert n == q' * f + r' && 0 <= r' < f;
    var d := q - q';
    assert d * f == r' - r by {
      assert q * f - q' * f == (q - q') * f;
    }
    if d >= 1 {
      MulAtLeast(d, f);
    } else if d <= -1 {
      MulAtLeast(-d, f);
    }
  }

  lemma MulAtLeast(a: int, f: int)
    requires a >= 1 && f >= 0
    ensures a * f >= f
  {
    assert a * f == (a - 1) * f + f;
  }

  /** Over `n` iterations every unit runs `n` forward passes, `n` backward
      passes when training, reports completion `n` times when it reports at
      all, and steps once per `updateFreq` iterations. */
  lemma {:induction false} TraceCounts(train: bool, updateFreq: int, n: nat, reportDone: bool)
    ensures var t := Trace(train, updateFreq, n, reportDone);
            && Count(t, ForwardPass) == n
            && Count(t, BackwardPass) == (if train then n else 0)
            && Count(t, Done) == (if reportDone then n else 0)
            && Count(t, StepPass) == (if train && updateFreq > 0 then n / updateFreq else 0)
  {
    if n > 0 {
      var before := Trace(train, updateFreq, n - 1, reportDone);
      var it := Iteration(train, updateFreq, n, reportDone);
      assert Trace(train, updateFreq, n, reportDone) == before + it;
      TraceCounts(train, updateFreq, n - 1, reportDone);
      CountSplit(before, it);
      if train && updateFreq > 0 {
        QuotientStep(n, updateFreq);
      }
    }
  }

  /** The trace of a shorter run is a prefix of the trace of a longer one:
      iteration `s` always runs the phases `Iteration` plans for it, placed
      right after those of iterations 1 through `s - 1`. */
  lemma {:induction false} TracePrefix(train: bool, updateFreq: int, s: nat, n: nat, reportDone: bool)
    requires s <= n
    ensures Trace(train, updateFreq, s, reportDone) <= Trace(train, updateFreq, n, reportDone)
    decreases n
  {
    if s < n {
      TracePrefix(train, updateFreq, s, n - 1, reportDone);
    }
  }
}

=== FILE: unit_ids.dfy ===
/** The unit identifiers of net.go: layer index and position within the
    layer, formatted with `fmt.Sprintf("%03d_%06d", layer, position)`.
    A parser recovers both numbers, which makes the format injective. */
module UnitIds {
  import opened Results

  predicate IsDigit(c: char) {
    '0' <= c <= '9'
  }

  predicate AllDigits(s: seq<char>) {
    forall i :: 0 <= i < |s| ==> IsDigit(s[i])
  }

  function DigitChar(d: nat): (c: char)
    requires d < 10
    ensures IsDigit(c) && c as int - '0' as int == d
  {
    ('0' as int + d) as char
  }

  /** The decimal representation of `n`, without leading zeros (`%d`). */
  function Decimal(n: nat): (s: seq<char>)
    ensures |s| >= 1 && AllDigits(s)
    decreases n
  {
    if n < 10 then [DigitChar(n)] else Decimal(n / 10) + [DigitChar(n % 10)]
  }

  function Zeros(k: nat): (s: seq<char>)
    ensures |s| == k && AllDigits(s)
    ensures forall i :: 0 <= i < k ==> s[i] == '0'
  {
    seq(k, _ => '0')
  }

  /** `%0<width>d` for a non-negative number: the decimal representation,
      left-padded with zeros up to `width` characters and never truncated. */
  function Padded(n: nat, width: nat): (s: seq<char>)
    ensures AllDigits(s) && |s| >= width && |s| >= 1
  {
    var d := Decimal(n);
    if |d| >= width then d else Zeros(width - |d|) + d
  }

  /** The id of the unit at position `pos` of layer `layer`. */
  function UnitId(layer: nat, pos: nat): (id: string)
    // The id reads back as the position it names.
    ensures Parse(id) == Some((layer, pos))
  {
    FormattedParses(layer, pos);
    Padded(layer, 3) + "_" + Padded(pos, 6)
  }

  /** The number a digit string denotes. */
  function Value(s: seq<char>): nat
    requires AllDigits(s)
  {
    if s == [] then 0 else Value(s[..|s| - 1]) * 10 + (s[|s| - 1] as int - '0' as int)
  }

  /** The position of the first `c` in `s`, if any. */
  function IndexOf(s: seq<char>, c: char): (r: Option<nat>)
    ensures r.Some? ==> r.value < |s| && s[r.value] == c && c !in s[..r.value]
    ensures r.None? ==> c !in s
  {
    if s == [] then None
    else if s[0] == c then Some(0)
    else match IndexOf(s[1..], c)
      case None => None
      case Some(i) => Some(i + 1)
  }

  /** Splits an id at its first underscore into two non-empty digit strings
      and reads them back as (layer, position). */
  function Parse(id: string): Option<(nat, nat)> {
    match IndexOf(id, '_')
    case None => None
    case Some(k) =>
      var (a, b) := (id[..k], id[k + 1..]);
      if |a| >= 1 && |b| >= 1 && AllDigits(a) && AllDigits(b) then Some((Value(a), Value(b))) else None
  }

  lemma {:induction false} ValueOfDecimal(n: nat)
    ensures Value(Decimal(n)) == n
    decreases n
  {
    if n >= 10 {
      var d := Decimal(n);
      assert d[..|d| - 1] == Decimal(n / 10);
      ValueOfDecimal(n / 10);
    }
  }

  lemma {:induction false} LeadingZerosAddNothing(k: nat, s: seq<char>)
    requires AllDigits(s)
    ensures Value(Zeros(k) + s) == Value(s)
    decreases |s|
  {
    if s == [] {
      assert Zeros(k) + s == Zeros(k);
      AllZerosIsZero(k);
    } else {
      assert (Zeros(k) + s)[..|Zeros(k) + s| - 1] == Zeros(k) + s[..|s| - 1];
      LeadingZerosAddNothing(k, s[..|s| - 1]);
    }
  }

  lemma {:induction false} AllZerosIsZero(k: nat)
    ensures Value(Zeros(k)) == 0
  {
    if k > 0 {
      assert Zeros(k)[..k - 1] == Zeros(k - 1);
      AllZerosIsZero(k - 1);
    }
  }

  /** Zero padding does not change the number a field denotes. */
  lemma ValueOfPadded(n: nat, width: nat)
    ensures Value(Padded(n, width)) == n
  {
    var d := Decimal(n);
    ValueOfDecimal(n);
    if |d| < width {
      LeadingZerosAddNothing(width - |d|, d);
    }
  }

  /** Parsing a formatted id gives back the layer and the position. */
  lemma FormattedParses(layer: nat, pos: nat)
    ensures Parse(Padded(layer, 3) + "_" + Padded(pos, 6)) == Some((layer, pos))
  {
    var a, b := Padded(layer, 3), Padded(pos, 6);
    var id := a + "_" + b;
    assert '_' !in a by {
      forall i | 0 <= i < |a| ensures a[i] != '_' { assert IsDigit(a[i]); }
    }
    IndexOfAfterPrefix(a, b);
    assert id[..|a|] == a && id[|a| + 1..] == b;
    ValueOfPadded(layer, 3);
    ValueOfPadded(pos, 6);
  }

  lemma IndexOfAfterPrefix(a: seq<char>, b: seq<char>)
    requires '_' !in a
    ensures IndexOf(a + "_" + b, '_') == Some(|a|)
  {
    var r := IndexOf(a + "_" + b, '_');
    assert (a + "_" + b)[|a|] == '_';
    assert (a + "_" + b)[..|a|] == a;
  }

  /** Distinct (layer, position) pairs get distinct ids. */
  lemma UnitIdInjective(l1: nat, p1: nat, l2: nat, p2: nat)
    requires UnitId(l1, p1) == UnitId(l2, p2)
    ensures l1 == l2 && p1 == p2
  {
    assert Parse(UnitId(l1, p1)) == Parse(UnitId(l2, p2));
  }

  /** An id starts with a digit, so it never collides with the reserved
      ids `_INPUT`, `_OUTPUT` and `_BIAS`, which start with an underscore. */
  lemma UnitIdNotReserved(layer: nat, pos: nat)
    ensures UnitId(layer, pos)[0] != '_'
    ensures UnitId(layer, pos) != "_INPUT" && UnitId(layer, pos) != "_OUTPUT" && UnitId(layer, pos) != "_BIAS"
  {
    assert UnitId(layer, pos)[0] == Padded(layer, 3)[0];
    assert IsDigit(Padded(layer, 3)[0]);
  }

  /** The id of the first unit of layer 2, as the network's tests name it. */
  lemma UnitIdExample()
    ensures UnitId(2, 0) == "002_000000"
  {
    assert Decimal(2) == "2";
    assert Decimal(0) == "0";
  }

  /** Below 1000 layers and a million units per layer, every id is ten
      characters long, as the format's widths promise. */
  lemma UnitIdWidth(layer: nat, pos: nat)
    requires layer < 1000 && pos < 1000000
    ensures |UnitId(layer, pos)| == 10
  {
    DecimalLength(layer, 3);
    DecimalLength(pos, 6);
  }

  lemma {:induction false} DecimalLength(n: nat, k: nat)
    requires n < Pow10(k)
    ensures |Decimal(n)| <= k || (n == 0 && k == 0)
    decreases n
  {
    if n >= 10 {
      DecimalLength(n / 10, k - 1);
    }
  }

  function Pow10(k: nat): nat {
    if k == 0 then 1 else 10 * Pow10(k - 1)
  }
}
